=== FILE: README.md ===
# Faye Bayeux client — a Dafny model

This project models `Faye.Client`, the browser side of the Bayeux
publish/subscribe protocol, as a pure state machine. The client holds a
session record:

- its state: unconnected, connecting, connected or disconnected;
- the `clientId` the server assigned, and the id of the outstanding `/meta/connect` request;
- the server's reconnect advice;
- the outbox of queued publishes;
- the subscription registry, which maps channel patterns to listeners;
- the named timers `reconnect` and `publish`;
- the deferrable gate, which holds application work until the client is connected.

Every public method (`handshake`, `connect`, `disconnect`, `subscribe`,
`unsubscribe`, `publish`, `handleAdvice`, `deliverMessages`) and every
transport or timer callback is one event. `Client.Step` runs that event to
completion. It returns the new session, the effects emitted and, when
channel validation throws, the error. The effects are:

- envelopes sent, with the reply handler the transport will call back;
- outbox batches sent;
- timers armed or cancelled;
- delayed calls scheduled;
- listeners invoked.

The environment feeds replies and timer firings back as further events.

Files:

- `wrappers.dfy`: `Option` and `Outcome`.
- `bayeux.dfy`: channel names, envelopes, responses and advice with its shallow merge.
- `channel_tree.dfy`: the subscription registry. It is an insertion-ordered association list with `set`, `getKeys` and `glob`.
- `deferrable.dfy`: the status tag and queue of the deferrable mixin.
- `client.dfy`: the session, the invariant `Valid`, each handler, and `Step`.
- `client_properties.dfy`: properties that span several transitions.
- `handshake_finding.dfy`: the unguarded handshake reply (see Findings).

What the model takes as parameters, in the record `Client.Env`:

- channel-name validity and subscribability (`Faye.Channel.isValid`, `isSubscribable`);
- glob matching of a pattern against a channel;
- the Bayeux version and supported connection types;
- transport selection (`Faye.Transport.get`), which fixes the connection type;
- the templated constants `CONNECTION_TIMEOUT`, `MAX_DELAY`, `INTERVAL` and `DEFAULT_ENDPOINT`.

`Faye.Namespace.generate` is a counter `nextId`. No transition lowers it,
and a connection id a transition sets is the value just generated, so every
id the client generates is larger than all earlier ones.

User callbacks are effects (`Invoke`) that the environment carries out
after the transition. They cannot call back into the client within the
same transition; see "Left out".

The handshake reply is the one place where the model departs from the
code. `Client.HandshakeResponseAsWritten` is the handler as the source
writes it. `Client.Step`, and every property in `client_properties.dfy`,
use the guarded `Client.HandshakeReplied` (see Findings).

Elsewhere, where the code differs from the client's documented behaviour,
the model follows the code:

- `disconnect` does not cancel the `publish` timer. An outbox queued before the disconnect is still flushed afterwards, so `Client.FirePublishTimer` can send a batch from a disconnected client.
- Connect replies are checked by `clientId` only, never by connection id (`_verifyClientId`).
- The callback passed to `unsubscribe` is never called, so the model has none.

## Model

| member | source | states |
|---|---|---|
| Client.Init | javascript/client.js:17-31 | A new client is unconnected and has no clientId, no connection id, an empty outbox, an empty registry and no timers. Its gate is "deferred" with nothing queued. Its advice is retry at the default interval, and its connection type is the one the transport first picks. A zero or absent timeout falls back to the default. It satisfies the session invariant. |
| Client.ValidateChannels | javascript/client.js:303-310 | Passes iff every name is valid and subscribable. On failure the error names the first bad channel, and says whether it is invalid or not subscribable. |
| Client.Enqueue | javascript/client.js:294-296 | The message goes to the back of the outbox. Everything queued before keeps its order, and nothing else changes. |
| Client.Flush | javascript/client.js:298-301 | Sends exactly the current outbox as one batch and leaves it empty; nothing else changes. |
| Client.RunTask | javascript/client.js:170-261 | Runs the body a public method hands to `connect`. Validation runs before any send, and a throw leaves the session untouched with nothing emitted. A subscribe, unsubscribe or publish throws iff one of its names fails validation, and the error is the one validation reports. Without a throw, a subscribe sends exactly one `/meta/subscribe` with the clientId and the names, whose reply handler binds the given listener. An unsubscribe likewise sends exactly one `/meta/unsubscribe`, whose reply handler nulls the names. A publish sends nothing itself: it only arms the publish timer with the maximum delay and appends exactly one envelope, carrying the current clientId, to the end of the outbox. Subscribe and unsubscribe change no state. A caller's own callback is invoked once. |
| Client.RunTaskEmits | javascript/client.js:170-261 | Ties one piece of work to the independent reference definitions of what it does: it throws iff it fails validation, and otherwise emits exactly its reference effects and adds exactly its reference publishes to the outbox. |
| Client.QueueOpensNoSession | javascript/client.js:170-261 | Whatever a queue of work holds, running it sends no handshake and no connect request. |
| Client.QueueAppend | javascript/client.js:111-113 | Work queued behind work that passes validation runs after it: the joined queue passes iff the later part does, and its effects and publishes are those of the earlier part followed by those of the later part. |
| Client.QueueStopsAtFailure | javascript/client.js:111-113 | A throw stops everything behind it: once a queue fails validation, nothing appended after it runs, so its effects and publishes are those of the failing queue alone. |
| Client.Drain | javascript/client.js:111 | Setting the status "succeeded" runs the queued work in order. Only the outbox, the timers and the queue change, and the status is kept. The queue is empty unless a task threw. What the work emits, publishes and leaves queued is in the three rows below. |
| Client.DrainRunsQueue | javascript/client.js:111 | Releasing the queue throws iff some queued piece fails validation. It emits exactly the reference effects of the queued work before the first failing piece, in queue order. |
| Client.DrainQueuesPublishes | javascript/client.js:111 | Releasing the queue adds to the outbox exactly the publishes of the queued work before the first failure, in queue order. |
| Client.DrainLeavesQueue | javascript/client.js:111 | What stays queued is exactly the work behind the first failing piece, or nothing when every piece passes. |
| Client.RunWhenSucceeded | javascript/client.js:105-106 | Deferrable `callback`: while the status is "deferred", the work is appended to the queue and nothing is emitted. While it is "succeeded", the work runs at once, with exactly the effects, publishes and throw `RunOptional` states for it. |
| Client.Handshake | javascript/client.js:56-69 | Changes nothing and sends nothing unless advice is not "none" and the state is unconnected. Otherwise the state becomes connecting and exactly one `/meta/handshake` envelope, with version and supported connection types, is sent. |
| Client.HandshakeResponseAsWritten | javascript/client.js:70-84 | On failure, the state becomes unconnected and a retry with the same callback is scheduled after the advised interval. On success, the state becomes connected, the clientId is taken from the reply, and the connection type is re-selected. Then a plain callback is invoked once, and a handshake started by `connect` runs exactly `connect` with the carried work on the updated session. |
| Client.RunHandshakeCallback | javascript/client.js:83 | After a successful handshake, runs what the handshake carried: nothing, the caller's callback once, or `connect` with its work. |
| Client.HandshakeReplied | javascript/client.js:70-84 | The corrected handler. A disconnected client ignores every reply. A connected client keeps its state and clientId: it drops a failed reply, and for a successful one runs only the work its handshake carried. When unconnected or connecting, the reply acts as written. |
| Client.OpenConnection | javascript/client.js:115-134 | Takes a fresh connection id before sending. It sends exactly one `/meta/connect` envelope, with clientId, connection type and that id, and arms the reconnect timer. |
| Client.ConnectViaHandshake | javascript/client.js:100-103 | Arms the reconnect timer first, then starts a handshake. Its effects are exactly that arm followed by the handshake request, when one is allowed, whose reply handler carries `connect` with the same work. Exactly one handshake request is sent when one is allowed, and none otherwise. |
| Client.ReleaseDeferred | javascript/client.js:111-112 | Sets the status "succeeded", which runs the deferred work, then resets it to "deferred". It throws iff some queued piece fails validation. It emits exactly the effects of the queued work in queue order, and the outbox gains exactly its publishes. Without a throw, the gate is "deferred" and empty; after a throw, it stays "succeeded" and holds the work behind the failing piece. It sends no handshake or connect request and keeps the invariant of a connected client. |
| Client.RunOptional | javascript/client.js:113 | The caller's optional work: none does nothing. Otherwise it throws iff the work fails validation, and it emits exactly the work's effects and adds exactly its publish to the outbox. It sends no handshake or connect request. |
| Client.RunThenOpen | javascript/client.js:113-134 | Runs the caller's work, then opens a connection. It throws iff the work fails validation. It emits exactly the work's effects, followed by the `/meta/connect` send and the reconnect-timer arm only when no connection id is held and nothing threw. The outbox gains exactly the work's publish. A new connection id is the fresh one. Only the outbox, the timers and the ids change. |
| Client.ConnectWhileConnected | javascript/client.js:110-134 | Fires the deferred work, then runs the caller's work. It throws iff some queued piece or the caller's work fails validation. It emits exactly the effects of the queued work and then of the caller's work, in that order, followed by one connect request only when no connection id is held and nothing threw. The outbox gains their publishes in the same order. Without a throw, the gate is "deferred" and empty and a connection id is held; a new one is the fresh one. It preserves the invariant. |
| Client.Connect | javascript/client.js:96-135 | Advice "none" or a disconnected client makes it a no-op. Under advice "handshake", or when unconnected, it arms the reconnect timer and sends a handshake whose reply runs `connect` with the same work. While connecting, it only queues the work and sends nothing as long as the gate is "deferred"; with the gate left "succeeded" by an earlier throw, it runs the work at once. When connected, without a throw, a connection id is held and the gate is "deferred" and empty; a new connection id is the fresh one. It never changes clientId, advice or the registry, it can throw only when connecting or connected, and it preserves the invariant. |
| Client.ConnectSessionRequests | javascript/client.js:96-135 | `connect` sends exactly one handshake or connect request when a handshake is allowed, or when a connected client holds no connection id and nothing threw, and none otherwise. It never removes envelopes from the outbox. |
| Client.Disconnect | javascript/client.js:144-158 | A no-op unless connected. Otherwise the state becomes disconnected, one `/meta/disconnect` with the clientId is sent, the registry is emptied and the reconnect timer is cancelled. Nothing else changes. |
| Client.RunSessionHandler | javascript/client.js:126-132 | A connect reply clears the connection id, cancels the reconnect timer and schedules `connect` after the advised interval, whether or not it succeeded. A subscribe reply binds each name in `response.subscription` to the listener only when it succeeded and a listener was given. An unsubscribe reply sets those names to null only when it succeeded. No other pattern changes. The subscribe and unsubscribe bodies are at javascript/client.js:184-194 and 223-233. |
| Client.VerifyClientId | javascript/client.js:312-319 | The reply is accepted, and the wrapped handler runs, iff its clientId equals the session's. A rejected reply changes nothing. |
| Client.FireReconnectTimer | javascript/client.js:282-291 | An unarmed timer does nothing. When armed, both ids are forgotten and the state becomes connecting, or unconnected under advice "none". The timer is armed again iff advice is not "none". The registry and the outbox are kept. |
| Client.FirePublishTimer | javascript/client.js:258 | An unarmed timer does nothing. When armed, it flushes: the whole outbox leaves as one batch and the timer is no longer armed. |
| Client.ReconnectTimeout | javascript/client.js:281-292 | Forgets clientId and connection id and falls back to unconnected. It then subscribes again to exactly the registered patterns, which re-arms the timer and sends one handshake. Under advice "none" it sends nothing and stays unconnected. |
| Bayeux.Merge | javascript/client.js:264 | Each field present in the update replaces the kept one, and each absent field keeps its value. |
| Bayeux.MergeIdempotent | javascript/client.js:264 | Merging an update twice is merging it once, and an empty update keeps the advice. |
| Client.HandleAdvice | javascript/client.js:263-266 | Each field present in the update overwrites the kept advice, and absent fields are kept. The clientId becomes null iff the merged reconnect advice is "handshake". Nothing else changes. |
| Client.Invocations | javascript/client.js:274-277 | Invokes each non-null listener with the message data, and never invokes a null entry or anything not in the list. Each listener is invoked exactly as many times as it appears in the list. |
| Client.DeliverMessages | javascript/client.js:268-279 | Every message reaches every listener of every pattern that globs its channel. Every invocation comes from such a message and listener. A single message invokes exactly the listeners glob returns for its channel. |
| Client.DeliverMessagesAppend | javascript/client.js:269-278 | Messages are delivered one after another: delivering two lists in a row emits the invocations of the first list followed by those of the second. |
| Client.Step | javascript/client.js:56-301 | Dispatches each event to its handler. Delivery changes no state and throws nothing. `handleAdvice` emits nothing and applies exactly `Client.HandleAdvice` to the session. A reply with a foreign clientId is dropped, and so is a handshake reply to a disconnected client. |
| ChannelTree.Set | javascript/client.js:192 | After `set`, the pattern maps to the value and every other pattern is unchanged. Keys stay distinct; a new pattern is appended to the key order and an existing one keeps its place. |
| ChannelTree.SetAll | javascript/client.js:191-193 | Every listed pattern maps to the value and every other pattern is unchanged. Keys stay distinct and no unlisted key appears. |
| ChannelTree.Glob | javascript/client.js:273 | Returns exactly the values of the patterns that match the channel: each value comes from a matching pattern, and each matching pattern contributes its value. |
| ChannelTree.KeysLookup | javascript/client.js:290 | A pattern is among `getKeys` iff the registry holds an entry for it. |
| ChannelTree.GlobSingle | javascript/client.js:273 | When exactly one registered pattern matches, glob returns exactly its value. |
| ChannelTree.NoneMatch | javascript/client.js:273 | When no registered pattern matches, glob returns nothing. |
| ClientProperties.StepPreservesValid | javascript/client.js:56-301 | Every transition preserves the session invariant. A publish timer is armed iff the outbox is non-empty, and a disconnected client has no reconnect timer. There is no connection id before the client is connected, the connection id held is below the next id, and registry keys are distinct. It holds for the guarded handshake reply only. |
| ClientProperties.StepIdsAdvance | javascript/client.js:115-116 | No transition lowers the next id, and a connection id a transition sets is the one it just generated. |
| ClientProperties.StepThrowsOnlyFromWork | javascript/client.js:170-261 | Only the events that run application work can throw: the public calls `connect`, `subscribe`, `unsubscribe` and `publish`, a scheduled `connect`, and a handshake reply. |
| ClientProperties.DisconnectedIsTerminal | javascript/client.js:57-58 | A disconnected client stays disconnected under every event and sends no request. The only batch it can send is the outbox queued before the disconnect, and its outbox never grows. |
| ClientProperties.DisconnectEndsSession | javascript/client.js:97-98 | After `disconnect`, a call to `handshake`, `connect` or `disconnect` changes nothing and sends nothing. |
| ClientProperties.CallSpendsPotential | javascript/client.js:57-58 | Each public call sends at most as many handshake or connect requests as it removes from the client's potential. The potential is 1 when unconnected or when connected with no connection id, and 0 otherwise. |
| ClientProperties.AtMostOneSessionRequestPerBurst | javascript/client.js:100-124 | Any sequence of public calls between two server replies or timer firings sends at most one handshake or connect request. It sends none while a handshake is in progress or a connect request is outstanding. |
| ClientProperties.ConnectReplyReopens | javascript/client.js:126-132 | A matching connect reply clears the connection id, cancels the reconnect timer and schedules `connect`. When that call fires, it sends exactly one connect request with a new id. |
| ClientProperties.ConnectRunsQueueThenCaller | javascript/client.js:110-124 | On a connected client, `connect` with a callback throws iff the queued work fails validation. Otherwise it emits the queued work's effects in order, then invokes the caller's callback, and only then sends `/meta/connect`, and only when no connection id is held. When the queue holds plain callbacks, those are exactly the queued invocations in order. |
| ClientProperties.ConnectedRunsQueueThenWork | javascript/client.js:110-134 | The connected branch for any work: it throws iff the queued work or the caller's fails validation. It emits their effects in that order, followed by the connect request only when no connection id is held and nothing threw. The outbox gains their publishes in the same order, and without a throw the gate is "deferred" and empty. |
| ClientProperties.CallsQueueWhileConnecting | javascript/client.js:105-106 | While a handshake is in progress and the gate is "deferred", every `connect`, `subscribe`, `unsubscribe` or `publish` call appends its work to the queue in call order. Nothing is emitted and nothing else changes. |
| ClientProperties.CallRunsAtOnceWhenSucceeded | javascript/client.js:105-106 | While a handshake is in progress but the gate was left "succeeded" by a throw, a call runs its work at once with the session's current clientId. It throws iff the work fails validation, and otherwise emits exactly the work's effects and adds exactly its publish to the outbox; the gate is unchanged. |
| ClientProperties.ReplyRunsQueuedWork | javascript/client.js:70-84 | A successful reply to the handshake started by `connect(c0)` connects the client with the reply's clientId. It throws iff the queued work fails validation. It emits the effects of the queued work and then invokes `c0`, stopping at the first failing piece. Only without a throw does it then send one `/meta/connect`, with the new clientId and the fresh id, and arm the reconnect timer. |
| ClientProperties.HandshakeRunsWorkHandedOver | javascript/client.js:96-134 | From the calls: `connect(c0)` on an unconnected client arms the reconnect timer and sends one handshake carrying `connect(c0)`. The calls that follow while it is outstanding queue their work in order and emit nothing. A successful reply then runs the queued work in order, then `c0`, then sends one `/meta/connect`; a failing piece stops the rest and the connect request. |
| ClientProperties.DrainUserTasks | javascript/client.js:111 | Releasing a queue of plain callbacks invokes each one once, in queue order, and empties the queue. |
| ClientProperties.SupersededHandshakeRunsCallback | javascript/client.js:70-84 | A successful handshake reply that arrives after another handshake connected the client keeps the live clientId and state. When the queued work passes validation, it still invokes the `connect` callback the handshake carried. |
| ClientProperties.AdviceNoneHalts | javascript/client.js:57 | Under advice "none", no event other than new advice sends a handshake or connect request, and the advice stays "none". |
| ClientProperties.AdviceHandshakeDiscardsOldReplies | javascript/client.js:265 | After the call `handleAdvice` with reconnect "handshake", the clientId is null, and a connect, subscribe or unsubscribe reply carrying the old clientId changes nothing. |
| ClientProperties.StaleRepliesIgnored | javascript/client.js:315 | A connect, subscribe or unsubscribe reply whose clientId is not the session's changes nothing and emits nothing. |
| ClientProperties.FailedRepliesKeepRegistry | javascript/client.js:185 | An unsuccessful subscribe or unsubscribe reply changes nothing. |
| ClientProperties.PublishWhileConnected | javascript/client.js:244-261 | One publish to an acceptable channel while connected appends its envelope, with the clientId, to the outbox. It sends no publish itself: it emits only the publish-timer arm, followed by a connect request when no connection id is held. It throws nothing, keeps the invariant and leaves the gate empty. |
| ClientProperties.PublishTimerFlushes | javascript/client.js:298-301 | The publish timer of a valid session with queued publishes sends the whole outbox as one batch and empties it, keeping the invariant. |
| ClientProperties.PublishesAccumulate | javascript/client.js:294-296 | Consecutive publishes while connected append their envelopes to the outbox in call order. |
| ClientProperties.PublishesCoalesce | javascript/client.js:252-258 | Consecutive publishes followed by the publish timer send exactly the old outbox plus every published envelope, in call order, as one batch. The outbox is then empty. The publish calls themselves send no publish envelope and no batch. |
| ClientProperties.PublishCallsSendNoPublish | javascript/client.js:244-261 | Any number of publishes to acceptable channels while connected send neither a batch nor a publish envelope; the envelopes only wait in the outbox. |
| ClientProperties.HandleAdviceIdempotent | javascript/client.js:263-266 | Applying the same advice twice leaves the client as applying it once. |
| ClientProperties.DeliverToSolePattern | javascript/client.js:268-279 | When only one registered pattern matches a channel, a message on it invokes that pattern's listener exactly once, or nothing if the entry is null. |
| ClientProperties.ReplyBindsSole | javascript/client.js:184-194 | A successful subscribe reply binds the pattern to the listener, and a successful unsubscribe reply binds it to null. In both cases the pattern stays the only match. |
| ClientProperties.ConnectedRunsTaskFirst | javascript/client.js:110-113 | On a connected client with nothing deferred, `connect` runs the caller's work before anything else: it throws what the work throws, and the work's effects come first. |
| ClientProperties.SubscribeCallSends | javascript/client.js:170-197 | On a connected client, `subscribe` throws iff a name fails validation, and then sends nothing and keeps the registry. Otherwise its first effect is one `/meta/subscribe` with the clientId and the names, whose handler binds the listener. |
| ClientProperties.UnsubscribeCallSends | javascript/client.js:209-236 | On a connected client, `unsubscribe` throws iff a name fails validation, and then sends nothing. Otherwise its first effect is one `/meta/unsubscribe` with the clientId and the names, whose handler nulls them. |
| ClientProperties.SubscribeDeliverUnsubscribe | javascript/client.js:170-236 | Round trip from the calls: `subscribe([p], l)` sends a request. Its successful reply makes a message on a channel only `p` matches reach `l` exactly once. `unsubscribe([p])` then sends a request whose successful reply makes the same message reach no one. |
| ClientProperties.HandshakeCallRunsCallback | javascript/client.js:56-84 | From the call: `handshake(c)` on an unconnected client with advice other than "none" sends exactly one `/meta/handshake` whose reply handler carries `c`, and the client becomes connecting. A successful reply fed to that handler connects the client with the reply's clientId and invokes `c` exactly once. A failed one makes it unconnected and schedules another handshake carrying `c` after the advised interval. |
| ClientProperties.SubscribeThenDeliver | javascript/client.js:170-197 | First half of the round trip: the subscribe call's own reply handler, fed a successful reply, makes a message on a channel only `p` matches invoke exactly the listener. The client stays connected with the same clientId and advice. |
| ClientProperties.UnsubscribeThenSilence | javascript/client.js:209-236 | Second half: the unsubscribe call's own reply handler, fed a successful reply, makes the same message invoke no one. |
| ClientProperties.DeliverOne | javascript/client.js:268-279 | Delivering one message invokes exactly the listeners glob returns for its channel. |
| HandshakeFinding.LateHandshakeIsOutstanding | javascript/client.js:96-103 | A reachable trace: `connect` sends a handshake, and the reconnect timer sends a second one. The first reply connects the client and `disconnect` ends the session, with the second reply still due. |
| HandshakeFinding.FirstConnectSendsHandshake | javascript/client.js:96-103 | The first `connect` on a new client arms the reconnect timer and sends one handshake carrying `connect`. The client is connecting, with nothing queued. |
| HandshakeFinding.TimerSendsSecondHandshake | javascript/client.js:282-291 | The reconnect timer firing while that handshake is outstanding arms the timer again and sends a second handshake, which carries the re-subscription. |
| HandshakeFinding.FirstReplyConnects | javascript/client.js:70-84 | The first handshake's successful reply connects the client with the reply's clientId and opens connection 0. |
| HandshakeFinding.ReplyOpensConnection | javascript/client.js:70-134 | For any client connecting with nothing queued, a successful reply to the handshake a plain `connect` started connects it with the reply's clientId and opens a connection with the fresh id, keeping the invariant and the advice. |
| HandshakeFinding.Revived | javascript/client.js:70-84 | As written, the handler never looks at the state: any successful reply makes the client connected, and any failed one makes it unconnected and schedules a retry after the advised interval. |
| HandshakeFinding.DisconnectedRevivedAsWritten | javascript/client.js:70-84 | As written, that late reply moves the disconnected client to connected when it succeeds. When it fails, it moves the client to unconnected and schedules a retry. |
| HandshakeFinding.DisconnectedKeptWhenGuarded | javascript/client.js:70-84 | With the state guard, every late reply leaves the disconnected client unchanged. |
| HandshakeFinding.ConnectedBrokenAsWritten | javascript/client.js:70-84 | As written, the late reply also breaks the connected client on the same trace. A failure makes it unconnected while a connect request is outstanding, which violates the invariant. A success replaces the clientId that request carries. |
| HandshakeFinding.ConnectedKeptWhenGuarded | javascript/client.js:70-84 | With the guard, every late reply leaves that connected client connected, with its clientId, and valid. |

## Left out

- Transport I/O: sending is an emitted effect, and transport selection is the parameter `Env.select`, whose result is kept as the connection type.
- Glob matching and channel-name rules: `Faye.Channel.Tree`'s matching, `isValid` and `isSubscribable` are not part of this model. They are parameters of `Env`.
- `Faye.Namespace.generate` is not part of this model. A counter stands in for it, which gives fresh ids but not its particular strings.
- Real time: timers are named entries and delayed calls are effects. A timer fires only when the environment says so, so no claim is made about timing.
- The deferrable and timeout mixins are not part of this model. Their behaviour is assumed: `callback` runs work at once when the status is "succeeded" and queues it otherwise. Setting "succeeded" runs the queue in order. Adding a named timeout replaces one of the same name.
- Logging (`this.info`) has no effect on state and is omitted.
- The `beforeunload` hook (javascript/client.js:33-34) is environment wiring and is omitted.
- The templated constants (javascript/client.js:2-15) are fields of `Env` or constructors of datatypes, because their values are not visible.
- Concurrency: the client runs one event at a time to completion, and that is all the model describes.
- Re-entrant callbacks: in the source, user callbacks (javascript/client.js:83, 113, 276) run inside the transition and may call back into the client. The model emits them as `Invoke` effects that run afterwards. A `connect` callback that calls `disconnect` would, in the source, still send `/meta/connect` and arm the reconnect timer on a disconnected client (115-134). The model does not cover that.
- Client.RunTask: a user callback that throws is not modelled. In the source, a `connect` callback that throws at javascript/client.js:113 stops `connect` before the `/meta/connect` send and the timer arm (115-134). In the model, a callback is an `Invoke` effect that cannot throw, so `Client.ConnectWhileConnected` always goes on to open the connection after the caller's callback.
- Deferrable drain after a throw: the model assumes a task that throws while the queue is released removes from the queue the work already run and itself, with the status "succeeded". The mixin's source is not part of this model.
- Client.RunSessionHandler: a successful subscribe or unsubscribe reply is taken to name its subscriptions. When the field is missing, the source's `[].concat(response.subscription)` (javascript/client.js:190, 229) gives a list holding one undefined name, which the model does not represent.
- ClientProperties.StepPreservesValid: holds for `Step`, which uses the guarded handshake reply. With the handler as written, a late failed reply breaks the invariant (HandshakeFinding.ConnectedBrokenAsWritten).
- Client.Step: every property over `Step` and `ClientProperties.RunAll` describes the client with the corrected handshake reply, not javascript/client.js:70-84 as written.
- The `scope` argument of callbacks is folded into the opaque `Callback` value.
- Client.Connect: the check `if (this._state !== this.CONNECTED) return` (javascript/client.js:108) is unreachable with four states and has no counterpart.
- Client.Init: states the endpoint fallback only as "the endpoint is empty only if the default is", and treats an absent endpoint as the empty string.
- ClientProperties.AtMostOneSessionRequestPerBurst: bounds requests between replies and timer firings. It does not bound them across a late handshake reply; that case is the finding below.

## Findings

| source | as written | input that shows it | evidently intended | confidence | as-written member | corrected member |
|---|---|---|---|---|---|---|
| javascript/client.js:70-84 | The handshake reply handler acts whatever the client's state is when the reply arrives. | `connect`; the reconnect timer fires while the handshake is outstanding, which sends a second handshake; the first reply succeeds. If the second reply now fails, the connected client becomes unconnected with its connect request outstanding. If instead `disconnect` comes first, the second reply makes the client connected again on success, or unconnected and retrying on failure. | A late reply never revives a disconnected client and never undoes a live session. It still runs the work its handshake carried, so a `connect` callback is not lost. | medium, not executed | Client.HandshakeResponseAsWritten, HandshakeFinding.DisconnectedRevivedAsWritten, HandshakeFinding.ConnectedBrokenAsWritten | Client.HandshakeReplied, ClientProperties.DisconnectedIsTerminal, ClientProperties.StepPreservesValid, ClientProperties.SupersededHandshakeRunsCallback, HandshakeFinding.DisconnectedKeptWhenGuarded, HandshakeFinding.ConnectedKeptWhenGuarded |

=== FILE: bayeux.dfy ===
/**
 * The vocabulary of the Bayeux protocol as the client uses it: the reserved
 * meta channels, the envelopes it sends, the responses it reads back and the
 * reconnection advice the server hands out.
 */
module Bayeux {
  import opened Wrappers

  /** A channel name such as "/foo/bar" or a wildcard pattern. */
  type Channel = string

  /** An application payload; the client never looks inside it. */
  type Data = string

  const MetaHandshake: Channel := "/meta/handshake"
  const MetaConnect: Channel := "/meta/connect"
  const MetaDisconnect: Channel := "/meta/disconnect"
  const MetaSubscribe: Channel := "/meta/subscribe"
  const MetaUnsubscribe: Channel := "/meta/unsubscribe"

  /**
   * A clientId slot as JavaScript holds it. A slot that was never assigned
   * or was deleted reads `undefined`; advice can set it to `null`; a server
   * assigns an id. The client compares ids with `===`, so `Undefined` and
   * `Null` are different values.
   */
  datatype IdField = Undefined | Null | Id(value: string)

  /** The messages the client hands to the transport. */
  datatype Envelope =
    | HandshakeRequest(version: string, supportedConnectionTypes: seq<string>)
    | ConnectRequest(clientId: IdField, connectionType: string, id: nat)
    | DisconnectRequest(clientId: IdField)
    | SubscribeRequest(clientId: IdField, subscription: seq<Channel>)
    | UnsubscribeRequest(clientId: IdField, subscription: seq<Channel>)
    | PublishRequest(channel: Channel, data: Data, clientId: IdField)
  {
    /** The `channel` field the envelope carries on the wire. */
    function ChannelField(): Channel {
      match this
      case HandshakeRequest(_, _) => MetaHandshake
      case ConnectRequest(_, _, _) => MetaConnect
      case DisconnectRequest(_) => MetaDisconnect
      case SubscribeRequest(_, _) => MetaSubscribe
      case UnsubscribeRequest(_, _) => MetaUnsubscribe
      case PublishRequest(ch, _, _) => ch
    }
  }

  /**
   * The fields of a server response the client reads. A missing clientId
   * reads as `Undefined` and missing connection types as an empty list.
   * `subscription` is the list of names the reply carries: a successful
   * subscribe or unsubscribe reply is taken to name its subscriptions.
   */
  datatype Response = Response(
    successful: bool,
    clientId: IdField,
    supportedConnectionTypes: seq<string>,
    subscription: seq<Channel>)

  /** A message pushed by the server on a concrete channel. */
  datatype Message = Message(channel: Channel, data: Data)

  /** The `reconnect` field of advice: "retry", "handshake" or "none". */
  datatype ReconnectAdvice = AdviseRetry | AdviseHandshake | AdviseNone

  /** The advice the client keeps: reconnection policy and retry interval. */
  datatype Advice = Advice(reconnect: ReconnectAdvice, interval: nat)

  /** Advice as a server sends it: any field may be absent. */
  datatype AdviceUpdate = AdviceUpdate(reconnect: Option<ReconnectAdvice>, interval: Option<nat>)

  /** Shallow merge: every field present in the update overwrites the kept one. */
  function Merge(a: Advice, u: AdviceUpdate): (r: Advice)
    ensures u.reconnect.Some? ==> r.reconnect == u.reconnect.value
    ensures u.reconnect.None? ==> r.reconnect == a.reconnect
    ensures u.interval.Some? ==> r.interval == u.interval.value
    ensures u.interval.None? ==> r.interval == a.interval
  {
    var reconnect := if u.reconnect.Some? then u.reconnect.value else a.reconnect;
    var interval := if u.interval.Some? then u.interval.value else a.interval;
    Advice(reconnect, interval)
  }

  /** Merging the same update twice is merging it once, and an empty update keeps the advice. */
  lemma MergeIdempotent(a: Advice, u: AdviceUpdate)
    ensures Merge(Merge(a, u), u) == Merge(a, u)
    ensures Merge(a, AdviceUpdate(None, None)) == a
  {
  }
}

=== FILE: channel_tree.dfy ===
/**
 * The subscription registry the client stores listeners in. Patterns map to
 * values; setting a pattern that is already present replaces its value in
 * place, and a new pattern is added after the existing ones. Pattern
 * matching (globbing) is a parameter: the registry only promises to return
 * the values of exactly the patterns that match.
 */
module ChannelTree {
  import opened Wrappers

  datatype Binding<V> = Binding(pattern: string, value: V)

  type Tree<V> = seq<Binding<V>>

  function Empty<V>(): Tree<V> { [] }

  /** No pattern is bound twice. */
  predicate Distinct<V>(t: Tree<V>) {
    forall i, j :: 0 <= i < j < |t| ==> t[i].pattern != t[j].pattern
  }

  /** The registered patterns, in registration order (`getKeys`). */
  function Keys<V>(t: Tree<V>): seq<string> {
    if t == [] then [] else [t[0].pattern] + Keys(t[1..])
  }

  /** The value bound to a pattern, if any. */
  function Lookup<V>(t: Tree<V>, p: string): Option<V> {
    if t == [] then None
    else if t[0].pattern == p then Some(t[0].value)
    else Lookup(t[1..], p)
  }

  lemma {:induction false} KeysLookup<V>(t: Tree<V>, p: string)
    ensures p in Keys(t) <==> Lookup(t, p).Some?
  {
    if t != [] {
      KeysLookup(t[1..], p);
    }
  }

  /** Binds `p` to `v` (`set`). */
  function Set<V>(t: Tree<V>, p: string, v: V): (r: Tree<V>)
    ensures Lookup(r, p) == Some(v)
    ensures forall q :: q != p ==> Lookup(r, q) == Lookup(t, q)
    ensures Distinct(t) ==> Distinct(r)
    ensures p in Keys(t) ==> Keys(r) == Keys(t)
    ensures p !in Keys(t) ==> Keys(r) == Keys(t) + [p]
  {
    if t == [] then [Binding(p, v)]
    else if t[0].pattern == p then [Binding(p, v)] + t[1..]
    else
      var rest := Set(t[1..], p, v);
      assert Distinct(t) ==> forall j :: 0 <= j < |rest| ==> rest[j].pattern != t[0].pattern by {
        if Distinct(t) {
          forall j | 0 <= j < |rest|
            ensures rest[j].pattern != t[0].pattern
          {
            KeysPatterns(rest, j);
            KeysLookup(rest, t[0].pattern);
            KeysLookup(t[1..], t[0].pattern);
            NotInKeys(t[1..], t[0].pattern);
          }
        }
      }
      [t[0]] + rest
  }

  lemma {:induction false} KeysPatterns<V>(t: Tree<V>, j: nat)
    requires j < |t|
    ensures t[j].pattern in Keys(t)
  {
    if j > 0 {
      KeysPatterns(t[1..], j - 1);
    }
  }

  lemma {:induction false} NotInKeys<V>(t: Tree<V>, p: string)
    requires forall j :: 0 <= j < |t| ==> t[j].pattern != p
    ensures p !in Keys(t)
  {
    if t != [] {
      NotInKeys(t[1..], p);
    }
  }

  /** Binds every pattern of `ps` to `v`, in order. */
  function SetAll<V>(t: Tree<V>, ps: seq<string>, v: V): (r: Tree<V>)
    ensures forall q :: q in ps ==> Lookup(r, q) == Some(v)
    ensures forall q :: q !in ps ==> Lookup(r, q) == Lookup(t, q)
    ensures Distinct(t) ==> Distinct(r)
    ensures forall q :: q in Keys(r) ==> q in Keys(t) || q in ps
    decreases |ps|
  {
    if ps == [] then t
    else
      var r := SetAll(Set(t, ps[0], v), ps[1..], v);
      assert forall q :: q in ps ==> q == ps[0] || q in ps[1..];
      r
  }

  /** The values of every pattern that matches `channel`, in registration order (`glob`). */
  function Glob<V>(t: Tree<V>, matches: (string, string) -> bool, channel: string): (r: seq<V>)
    ensures |r| <= |t|
    ensures forall v :: v in r ==> exists i :: 0 <= i < |t| && matches(t[i].pattern, channel) && t[i].value == v
    ensures forall i :: 0 <= i < |t| && matches(t[i].pattern, channel) ==> t[i].value in r
  {
    if t == [] then []
    else
      var rest := Glob(t[1..], matches, channel);
      assert forall i :: 1 <= i < |t| ==> t[i] == t[1..][i - 1];
      if matches(t[0].pattern, channel) then [t[0].value] + rest else rest
  }

  /**
   * When exactly one registered pattern matches a channel, globbing that
   * channel yields exactly that pattern's value, once.
   */
  lemma {:induction false} GlobSingle<V>(t: Tree<V>, matches: (string, string) -> bool, channel: string, p: string, v: V)
    requires Lookup(t, p) == Some(v)
    requires matches(p, channel)
    requires forall q :: q in Keys(t) && q != p ==> !matches(q, channel)
    requires Distinct(t)
    ensures Glob(t, matches, channel) == [v]
  {
    if t[0].pattern == p {
      NoneMatch(t[1..], matches, channel, p);
    } else {
      assert t[0].pattern in Keys(t);
      GlobSingle(t[1..], matches, channel, p, v);
    }
  }

  lemma {:induction false} NoneMatch<V>(t: Tree<V>, matches: (string, string) -> bool, channel: string, p: string)
    requires forall q :: q in Keys(t) && q != p ==> !matches(q, channel)
    requires forall j :: 0 <= j < |t| ==> t[j].pattern != p
    ensures Glob(t, matches, channel) == []
  {
    if t != [] {
      assert t[0].pattern in Keys(t);
      NoneMatch(t[1..], matches, channel, p);
    }
  }
}

=== FILE: client.dfy ===
/**
 * The Bayeux client state machine (`Faye.Client`). The client object is an
 * immutable `Session` record; every public method and every transport or
 * timer callback is a pure handler from a session to an `Exec`: the new
 * session, the effects it emitted in order, and the channel error it threw,
 * if any. A JavaScript `throw` keeps the changes made before it, so a thrown
 * `Exec` carries the session as it stood at the throw.
 */
module Client {
  import opened Wrappers
  import opened Bayeux
  import ChannelTree
  import opened Deferrable

  datatype State = Unconnected | Connecting | Connected | Disconnected

  /** The two named timers the client arms through its timeout registry. */
  datatype TimerName = ReconnectTimer | PublishTimer

  /** An application callback together with its `this` scope. */
  datatype Callback = Callback(fn: nat, scope: nat)

  /** The listener registry: a `null` entry is an unsubscribed pattern. */
  type Listeners = ChannelTree.Tree<Option<Callback>>

  /** Work handed to `connect` to run once the session is connected. */
  datatype Task =
    | UserTask(callback: Callback)
    | SubscribeTask(channels: seq<Channel>, listener: Option<Callback>)
    | UnsubscribeTask(channels: seq<Channel>)
    | PublishTask(channel: Channel, data: Data)

  /** What a handshake runs when it succeeds. */
  datatype HandshakeCallback =
    | NoCallback
    | UserCallback(callback: Callback)
    | ThenConnect(task: Option<Task>)

  /** The handlers wrapped by the clientId check. */
  datatype SessionHandler = ConnectDone | SubscribeDone(listener: Option<Callback>) | UnsubscribeDone

  /** The completion callback a request leaves with the transport. */
  datatype ReplyHandler = HandshakeReply(callback: HandshakeCallback) | Verified(handler: SessionHandler)

  /** A call scheduled with a plain, unnamed delay. */
  datatype DelayedCall = RetryHandshake(callback: HandshakeCallback) | ConnectAgain

  datatype Effect =
    | Send(message: Envelope, reply: Option<ReplyHandler>)
    | SendBatch(messages: seq<Envelope>)
    | Arm(timer: TimerName, delay: nat)
    | Disarm(timer: TimerName)
    | Schedule(call: DelayedCall, delay: nat)
    | Invoke(callback: Callback, data: Option<Data>)

  datatype ChannelError = InvalidChannel(channel: Channel) | NotSubscribable(channel: Channel)

  /**
   * What the client consumes but does not define: channel-name rules,
   * pattern matching, the transport's choices and the configured constants.
   */
  datatype Env = Env(
    isValid: Channel -> bool,
    isSubscribable: Channel -> bool,
    matches: (Channel, Channel) -> bool,
    version: string,
    supportedConnectionTypes: seq<string>,
    initialConnectionType: string,
    select: seq<string> -> string,
    connectionTimeout: nat,
    maxDelay: nat,
    interval: nat,
    defaultEndpoint: string)

  datatype Session = Session(
    endpoint: string,
    timeout: nat,
    connectionType: string,
    state: State,
    clientId: IdField,
    connectionId: Option<nat>,
    nextId: nat,
    advice: Advice,
    outbox: seq<Envelope>,
    channels: Listeners,
    timers: set<TimerName>,
    gate: Gate<Task>)

  datatype Exec = Exec(s: Session, out: seq<Effect>, thrown: Option<ChannelError>)

  /** The outcome of a clientId-checked reply: whether the handler ran, and what it did. */
  datatype Verdict = Verdict(accepted: bool, exec: Exec)

  function Done(s: Session): Exec { Exec(s, [], None) }

  /** The invariant every reachable session keeps. */
  predicate Valid(s: Session) {
    && (PublishTimer in s.timers <==> |s.outbox| > 0)
    && (s.state == Disconnected ==> ReconnectTimer !in s.timers)
    && ((s.state == Unconnected || s.state == Connecting) ==> s.connectionId.None?)
    && (s.connectionId.Some? ==> s.connectionId.value < s.nextId)
    && ChannelTree.Distinct(s.channels)
  }

  /**
   * Connection ids only move forward: `nextId` never decreases, and a
   * connection id that changes to a value is the one just generated.
   */
  predicate IdsAdvance(s: Session, s': Session) {
    && s'.nextId >= s.nextId
    && (s'.connectionId.Some? && s'.connectionId != s.connectionId ==>
          s'.connectionId == Some(s.nextId) && s'.nextId == s.nextId + 1)
  }

  /** A handshake or connect request: the requests that open or hold the session. */
  predicate OpensSession(e: Effect) {
    e.Send? && (e.message.HandshakeRequest? || e.message.ConnectRequest?)
  }

  function SessionRequests(out: seq<Effect>): nat {
    if out == [] then 0
    else (if OpensSession(out[0]) then 1 else 0) + SessionRequests(out[1..])
  }

  lemma {:induction false} SessionRequestsAppend(a: seq<Effect>, b: seq<Effect>)
    ensures SessionRequests(a + b) == SessionRequests(a) + SessionRequests(b)
  {
    if a != [] {
      assert (a + b)[0] == a[0];
      assert (a + b)[1..] == a[1..] + b;
      SessionRequestsAppend(a[1..], b);
    } else {
      assert a + b == b;
    }
  }

  lemma NoSessionRequestsFirst(a: seq<Effect>, b: seq<Effect>)
    requires SessionRequests(a) == 0
    ensures SessionRequests(a + b) == SessionRequests(b)
  {
    SessionRequestsAppend(a, b);
  }

  /** The client as `initialize` leaves it; an empty endpoint or a zero timeout falls back to the default. */
  function Init(env: Env, endpoint: string, timeout: Option<nat>): (s: Session)
    ensures Valid(s)
    ensures s.state == Unconnected && s.clientId == Undefined && s.connectionId == None
    ensures s.advice == Advice(AdviseRetry, env.interval)
    ensures s.outbox == [] && s.channels == [] && s.timers == {} && s.gate == Gate(Deferred, [])
    ensures s.connectionType == env.initialConnectionType && s.nextId == 0
    ensures s.timeout == (if timeout.Some? && timeout.value != 0 then timeout.value else env.connectionTimeout)
    ensures s.endpoint != "" || env.defaultEndpoint == ""
  {
    Session(
      if endpoint == "" then env.defaultEndpoint else endpoint,
      if timeout.Some? && timeout.value != 0 then timeout.value else env.connectionTimeout,
      env.initialConnectionType,
      Unconnected,
      Undefined,
      None,
      0,
      Advice(AdviseRetry, env.interval),
      [],
      ChannelTree.Empty(),
      {},
      Initial())
  }

  // ---------------------------------------------------------------- validation

  predicate Acceptable(env: Env, ch: Channel) {
    env.isValid(ch) && env.isSubscribable(ch)
  }

  function Rejection(env: Env, ch: Channel): ChannelError {
    if !env.isValid(ch) then InvalidChannel(ch) else NotSubscribable(ch)
  }

  /** `_validateChannels`: fails on the first name that is invalid or not subscribable. */
  function ValidateChannels(env: Env, channels: seq<Channel>): (r: Outcome<ChannelError>)
    ensures r.Pass? <==> forall i :: 0 <= i < |channels| ==> Acceptable(env, channels[i])
    ensures r.Fail? ==>
              exists i :: && 0 <= i < |channels| && !Acceptable(env, channels[i])
                          && (forall j :: 0 <= j < i ==> Acceptable(env, channels[j]))
                          && r.error == Rejection(env, channels[i])
  {
    if channels == [] then Pass
    else if !Acceptable(env, channels[0]) then Fail(Rejection(env, channels[0]))
    else
      var r := ValidateChannels(env, channels[1..]);
      assert forall i :: 1 <= i < |channels| ==> channels[i] == channels[1..][i - 1];
      if r.Fail? then
        var k :| 0 <= k < |channels[1..]| && !Acceptable(env, channels[1..][k])
          && (forall j :: 0 <= j < k ==> Acceptable(env, channels[1..][j]))
          && r.error == Rejection(env, channels[1..][k]);
        assert !Acceptable(env, channels[k + 1]);
        r
      else r
  }

  // ---------------------------------------------------------------- outbox

  /** `_enqueue`: the message goes to the back of the outbox; what was queued before keeps its order. */
  function Enqueue(s: Session, m: Envelope): (r: Session)
    ensures |r.outbox| == |s.outbox| + 1
    ensures r.outbox[..|s.outbox|] == s.outbox && r.outbox[|s.outbox|] == m
    ensures r == s.(outbox := r.outbox)
  {
    s.(outbox := s.outbox + [m])
  }

  /** `_flush`: the whole outbox leaves as one transport call and the outbox is emptied. */
  function Flush(s: Session): (r: Exec)
    ensures r.out == [SendBatch(s.outbox)]
    ensures r.s.outbox == []
    ensures r.s == s.(outbox := [])
  {
    Exec(s.(outbox := []), [SendBatch(s.outbox)], None)
  }

  // ---------------------------------------------------------------- what work emits

  /** Whether a piece of work gets past channel validation. */
  predicate TaskPasses(env: Env, t: Task) {
    match t
    case UserTask(_) => true
    case SubscribeTask(chs, _) => forall c :: c in chs ==> Acceptable(env, c)
    case UnsubscribeTask(chs) => forall c :: c in chs ==> Acceptable(env, c)
    case PublishTask(ch, _) => Acceptable(env, ch)
  }

  /** The effects a piece of work that passes validation emits, for a session with `clientId`. */
  function TaskEffects(env: Env, clientId: IdField, t: Task): seq<Effect> {
    match t
    case UserTask(c) => [Invoke(c, None)]
    case SubscribeTask(chs, l) => [Send(SubscribeRequest(clientId, chs), Some(Verified(SubscribeDone(l))))]
    case UnsubscribeTask(chs) => [Send(UnsubscribeRequest(clientId, chs), Some(Verified(UnsubscribeDone)))]
    case PublishTask(_, _) => [Arm(PublishTimer, env.maxDelay)]
  }

  /** The envelopes a piece of work that passes validation adds to the outbox. */
  function TaskPublishes(clientId: IdField, t: Task): seq<Envelope> {
    if t.PublishTask? then [PublishRequest(t.channel, t.data, clientId)] else []
  }

  /** Every piece of work in `q` passes validation. */
  predicate QueuePasses(env: Env, q: seq<Task>) {
    forall i :: 0 <= i < |q| ==> TaskPasses(env, q[i])
  }

  /** Running `q` in order emits the effects of each piece of work up to the first that fails validation. */
  function QueueEffects(env: Env, clientId: IdField, q: seq<Task>): seq<Effect> {
    if q == [] || !TaskPasses(env, q[0]) then []
    else TaskEffects(env, clientId, q[0]) + QueueEffects(env, clientId, q[1..])
  }

  /** The envelopes running `q` adds to the outbox, up to the first piece of work that fails validation. */
  function QueuePublishes(env: Env, clientId: IdField, q: seq<Task>): seq<Envelope> {
    if q == [] || !TaskPasses(env, q[0]) then []
    else TaskPublishes(clientId, q[0]) + QueuePublishes(env, clientId, q[1..])
  }

  /** What stays queued after running `q`: whatever is behind the first piece of work that fails. */
  function QueueLeft(env: Env, q: seq<Task>): seq<Task> {
    if q == [] then []
    else if !TaskPasses(env, q[0]) then q[1..]
    else QueueLeft(env, q[1..])
  }

  /** Optional work as a queue of at most one. */
  function Work(task: Option<Task>): seq<Task> {
    if task.Some? then [task.value] else []
  }

  /** Queued work never sends a handshake or a connect request. */
  lemma {:induction false} QueueOpensNoSession(env: Env, clientId: IdField, q: seq<Task>)
    ensures SessionRequests(QueueEffects(env, clientId, q)) == 0
  {
    if q != [] && TaskPasses(env, q[0]) {
      QueueOpensNoSession(env, clientId, q[1..]);
      SessionRequestsAppend(TaskEffects(env, clientId, q[0]), QueueEffects(env, clientId, q[1..]));
    }
  }

  /** A queue passes exactly when both of its halves do. */
  lemma QueuePassesAppend(env: Env, a: seq<Task>, b: seq<Task>)
    ensures QueuePasses(env, a + b) <==> QueuePasses(env, a) && QueuePasses(env, b)
  {
    if QueuePasses(env, a) && QueuePasses(env, b) {
      forall i | 0 <= i < |a + b| ensures TaskPasses(env, (a + b)[i]) {
        if i >= |a| {
          assert (a + b)[i] == b[i - |a|];
        }
      }
    }
    if QueuePasses(env, a + b) {
      forall i | 0 <= i < |a| ensures TaskPasses(env, a[i]) {
        assert (a + b)[i] == a[i];
      }
      forall i | 0 <= i < |b| ensures TaskPasses(env, b[i]) {
        assert (a + b)[|a| + i] == b[i];
      }
    }
  }

  /** Running `a + b` after a passing `a` emits `a`'s effects, then `b`'s. */
  lemma {:induction false} QueueEffectsAppend(env: Env, clientId: IdField, a: seq<Task>, b: seq<Task>)
    requires QueuePasses(env, a)
    ensures QueueEffects(env, clientId, a + b) == QueueEffects(env, clientId, a) + QueueEffects(env, clientId, b)
  {
    if a == [] {
      assert a + b == b;
    } else {
      assert (a + b)[0] == a[0] && (a + b)[1..] == a[1..] + b;
      assert TaskPasses(env, a[0]);
      assert a == [a[0]] + a[1..];
      QueuePassesAppend(env, [a[0]], a[1..]);
      QueueEffectsAppend(env, clientId, a[1..], b);
      AppendAssoc(TaskEffects(env, clientId, a[0]), QueueEffects(env, clientId, a[1..]), QueueEffects(env, clientId, b));
    }
  }

  /** Running `a + b` after a passing `a` queues `a`'s publishes, then `b`'s. */
  lemma {:induction false} QueuePublishesAppend(env: Env, clientId: IdField, a: seq<Task>, b: seq<Task>)
    requires QueuePasses(env, a)
    ensures QueuePublishes(env, clientId, a + b) == QueuePublishes(env, clientId, a) + QueuePublishes(env, clientId, b)
  {
    if a == [] {
      assert a + b == b;
    } else {
      assert (a + b)[0] == a[0] && (a + b)[1..] == a[1..] + b;
      assert TaskPasses(env, a[0]);
      assert a == [a[0]] + a[1..];
      QueuePassesAppend(env, [a[0]], a[1..]);
      QueuePublishesAppend(env, clientId, a[1..], b);
      AppendAssoc(TaskPublishes(clientId, a[0]), QueuePublishes(env, clientId, a[1..]), QueuePublishes(env, clientId, b));
    }
  }

  /** Work that follows a passing queue runs as if the queue were not there, after it. */
  lemma QueueAppend(env: Env, clientId: IdField, a: seq<Task>, b: seq<Task>)
    requires QueuePasses(env, a)
    ensures QueuePasses(env, a + b) <==> QueuePasses(env, b)
    ensures QueueEffects(env, clientId, a + b) == QueueEffects(env, clientId, a) + QueueEffects(env, clientId, b)
    ensures QueuePublishes(env, clientId, a + b) == QueuePublishes(env, clientId, a) + QueuePublishes(env, clientId, b)
  {
    QueuePassesAppend(env, a, b);
    QueueEffectsAppend(env, clientId, a, b);
    QueuePublishesAppend(env, clientId, a, b);
  }



  // ---------------------------------------------------------------- tasks

  /** What running application work may change: it appends to the outbox, arming the publish timer, and emits effects. */
  predicate TaskFrame(s: Session, s': Session) {
    && s'.state == s.state && s'.clientId == s.clientId && s'.connectionId == s.connectionId
    && s'.nextId == s.nextId && s'.advice == s.advice && s'.channels == s.channels
    && s'.connectionType == s.connectionType && s'.endpoint == s.endpoint && s'.timeout == s.timeout
    && s.outbox <= s'.outbox
    && (s'.timers == s.timers || (s'.timers == s.timers + {PublishTimer} && |s'.outbox| > |s.outbox|))
    && (|s'.outbox| > |s.outbox| ==> PublishTimer in s'.timers)
  }

  /**
   * The bodies `subscribe`, `unsubscribe` and `publish` hand to `connect`,
   * and a caller's own callback. Validation runs before anything is sent.
   */
  function RunTask(env: Env, s: Session, t: Task): (r: Exec)
    ensures TaskFrame(s, r.s) && r.s.gate == s.gate
    ensures SessionRequests(r.out) == 0
    ensures r.thrown.Some? ==> r.s == s && r.out == []
    ensures t.PublishTask? && r.thrown.None? ==>
      r.s.outbox == s.outbox + [PublishRequest(t.channel, t.data, s.clientId)]
    ensures !t.PublishTask? ==> r.s == s
    ensures t.UserTask? ==> r == Exec(s, [Invoke(t.callback, None)], None)
    ensures t.SubscribeTask? || t.UnsubscribeTask? ==>
      (r.thrown.None? <==> forall c :: c in t.channels ==> Acceptable(env, c))
    ensures t.PublishTask? ==> (r.thrown.None? <==> Acceptable(env, t.channel))
    ensures r.thrown.Some? ==>
      r.thrown.value == ValidateChannels(env, if t.PublishTask? then [t.channel] else t.channels).error
    ensures t.SubscribeTask? && r.thrown.None? ==>
      r.out == [Send(SubscribeRequest(s.clientId, t.channels), Some(Verified(SubscribeDone(t.listener))))]
    ensures t.UnsubscribeTask? && r.thrown.None? ==>
      r.out == [Send(UnsubscribeRequest(s.clientId, t.channels), Some(Verified(UnsubscribeDone)))]
    ensures t.PublishTask? && r.thrown.None? ==> r.out == [Arm(PublishTimer, env.maxDelay)]
  {
    match t
    case UserTask(c) => Exec(s, [Invoke(c, None)], None)
    case SubscribeTask(chs, l) =>
      var v := ValidateChannels(env, chs);
      if v.Fail? then Exec(s, [], Some(v.error))
      else Exec(s, [Send(SubscribeRequest(s.clientId, chs), Some(Verified(SubscribeDone(l))))], None)
    case UnsubscribeTask(chs) =>
      var v := ValidateChannels(env, chs);
      if v.Fail? then Exec(s, [], Some(v.error))
      else Exec(s, [Send(UnsubscribeRequest(s.clientId, chs), Some(Verified(UnsubscribeDone)))], None)
    case PublishTask(ch, d) =>
      var v := ValidateChannels(env, [ch]);
      if v.Fail? then Exec(s, [], Some(v.error))
      else
        var s1 := Enqueue(s, PublishRequest(ch, d, s.clientId));
        Exec(s1.(timers := s1.timers + {PublishTimer}), [Arm(PublishTimer, env.maxDelay)], None)
  }

  /** Running one piece of work throws iff it fails validation, and otherwise emits and queues exactly what it should. */
  lemma RunTaskEmits(env: Env, s: Session, t: Task)
    ensures var r := RunTask(env, s, t);
      && (r.thrown.None? <==> TaskPasses(env, t))
      && (r.thrown.None? ==>
            r.out == TaskEffects(env, s.clientId, t) && r.s.outbox == s.outbox + TaskPublishes(s.clientId, t))
  {
    match t
    case UserTask(c) =>
    case SubscribeTask(chs, l) =>
    case UnsubscribeTask(chs) =>
    case PublishTask(ch, d) =>
  }

  /**
   * Setting the status "succeeded": the queued tasks run in order. A task
   * that throws stops the drain; those behind it stay queued.
   */
  function Drain(env: Env, s: Session): (r: Exec)
    ensures TaskFrame(s, r.s) && r.s.gate.status == s.gate.status
    ensures r.thrown.None? ==> r.s.gate.queue == []
    decreases |s.gate.queue|
  {
    if s.gate.queue == [] then Done(s)
    else
      var s1 := s.(gate := s.gate.(queue := s.gate.queue[1..]));
      var r1 := RunTask(env, s1, s.gate.queue[0]);
      if r1.thrown.Some? then
        r1
      else
        var r2 := Drain(env, r1.s);
        TaskFrameTransitive(s, r1.s, r2.s);
        Exec(r2.s, r1.out + r2.out, r2.thrown)
  }

  /**
   * Releasing the queue runs each piece of work in queue order: it throws
   * iff some piece fails validation, and emits the effects of every piece
   * before the first failure.
   */
  lemma {:induction false} DrainRunsQueue(env: Env, s: Session)
    ensures Drain(env, s).thrown.None? <==> QueuePasses(env, s.gate.queue)
    ensures Drain(env, s).out == QueueEffects(env, s.clientId, s.gate.queue)
    decreases |s.gate.queue|
  {
    var q := s.gate.queue;
    if q != [] {
      QueuePassesCons(env, q);
      if !TaskPasses(env, q[0]) {
        DrainHeadThrows(env, s);
      } else {
        DrainHeadRuns(env, s);
        DrainRunsQueue(env, RunTask(env, s.(gate := s.gate.(queue := q[1..])), q[0]).s);
      }
    }
  }

  /** Releasing the queue adds to the outbox the publishes of every piece of work before the first failure. */
  lemma {:induction false} DrainQueuesPublishes(env: Env, s: Session)
    ensures Drain(env, s).s.outbox == s.outbox + QueuePublishes(env, s.clientId, s.gate.queue)
    decreases |s.gate.queue|
  {
    var q := s.gate.queue;
    if q != [] {
      if !TaskPasses(env, q[0]) {
        DrainHeadThrows(env, s);
      } else {
        DrainHeadRuns(env, s);
        DrainQueuesPublishes(env, RunTask(env, s.(gate := s.gate.(queue := q[1..])), q[0]).s);
        AppendAssoc(s.outbox, TaskPublishes(s.clientId, q[0]), QueuePublishes(env, s.clientId, q[1..]));
      }
    }
  }

  /** Releasing the queue leaves queued only the work behind the first failure. */
  lemma {:induction false} DrainLeavesQueue(env: Env, s: Session)
    ensures Drain(env, s).s.gate.queue == QueueLeft(env, s.gate.queue)
    decreases |s.gate.queue|
  {
    var q := s.gate.queue;
    if q != [] {
      if !TaskPasses(env, q[0]) {
        DrainHeadThrows(env, s);
      } else {
        DrainHeadRuns(env, s);
        DrainLeavesQueue(env, RunTask(env, s.(gate := s.gate.(queue := q[1..])), q[0]).s);
      }
    }
  }

  lemma AppendAssoc<T>(a: seq<T>, b: seq<T>, c: seq<T>)
    ensures a + (b + c) == (a + b) + c
  {
  }

  /** A head that fails validation stops the drain at once. */
  lemma DrainHeadThrows(env: Env, s: Session)
    requires s.gate.queue != [] && !TaskPasses(env, s.gate.queue[0])
    ensures var r := Drain(env, s);
      && r.thrown.Some? && r.out == [] && r.s.outbox == s.outbox && r.s.gate.queue == s.gate.queue[1..]
  {
    RunTaskEmits(env, s.(gate := s.gate.(queue := s.gate.queue[1..])), s.gate.queue[0]);
  }

  /** A head that passes emits its effects, queues its publishes, and the drain goes on with the rest. */
  lemma DrainHeadRuns(env: Env, s: Session)
    requires s.gate.queue != [] && TaskPasses(env, s.gate.queue[0])
    ensures var r1 := RunTask(env, s.(gate := s.gate.(queue := s.gate.queue[1..])), s.gate.queue[0]);
      && r1.thrown.None? && r1.s.gate.queue == s.gate.queue[1..] && r1.s.clientId == s.clientId
      && r1.s.outbox == s.outbox + TaskPublishes(s.clientId, s.gate.queue[0])
      && var r2 := Drain(env, r1.s);
         Drain(env, s) == Exec(r2.s, TaskEffects(env, s.clientId, s.gate.queue[0]) + r2.out, r2.thrown)
  {
    RunTaskEmits(env, s.(gate := s.gate.(queue := s.gate.queue[1..])), s.gate.queue[0]);
  }

  /** Work behind a failure in `a` never runs, whatever `b` holds. */
  lemma {:induction false} QueueStopsAtFailure(env: Env, clientId: IdField, a: seq<Task>, b: seq<Task>)
    requires !QueuePasses(env, a)
    ensures !QueuePasses(env, a + b)
    ensures QueueEffects(env, clientId, a + b) == QueueEffects(env, clientId, a)
    ensures QueuePublishes(env, clientId, a + b) == QueuePublishes(env, clientId, a)
  {
    assert a != [];
    assert (a + b)[0] == a[0] && (a + b)[1..] == a[1..] + b;
    QueuePassesCons(env, a);
    if TaskPasses(env, a[0]) {
      QueueStopsAtFailure(env, clientId, a[1..], b);
    }
    assert !TaskPasses(env, (a + b)[0]) || !QueuePasses(env, (a + b)[1..]);
    QueuePassesCons(env, a + b);
  }

  lemma QueuePassesCons(env: Env, q: seq<Task>)
    requires q != []
    ensures QueuePasses(env, q) <==> TaskPasses(env, q[0]) && QueuePasses(env, q[1..])
  {
    if TaskPasses(env, q[0]) && QueuePasses(env, q[1..]) {
      forall i | 1 <= i < |q| ensures TaskPasses(env, q[i]) {
        assert q[i] == q[1..][i - 1];
      }
    }
  }

  lemma TaskFrameTransitive(s: Session, s': Session, s'': Session)
    requires TaskFrame(s, s') && TaskFrame(s', s'')
    ensures TaskFrame(s, s'')
  {
  }

  /** Deferrable `callback`: runs the work now if the status is "succeeded", otherwise queues it. */
  function RunWhenSucceeded(env: Env, s: Session, task: Option<Task>): (r: Exec)
    ensures TaskFrame(s, r.s) && r.s.gate.status == s.gate.status
    ensures SessionRequests(r.out) == 0
    ensures s.gate.status == Deferred ==>
              && r.out == [] && r.thrown.None?
              && r.s == s.(gate := if task.Some? then Defer(s.gate, task.value) else s.gate)
    ensures s.gate.status == Succeeded ==> r == RunOptional(env, s, task)
  {
    match task
    case None => Done(s)
    case Some(t) =>
      if s.gate.status == Succeeded then RunTask(env, s, t)
      else Done(s.(gate := Defer(s.gate, t)))
  }

  function RunOptional(env: Env, s: Session, task: Option<Task>): (r: Exec)
    ensures TaskFrame(s, r.s) && r.s.gate == s.gate
    ensures SessionRequests(r.out) == 0
    ensures r.thrown.Some? ==> r.s == s && r.out == []
    ensures r.thrown.None? <==> QueuePasses(env, Work(task))
    ensures r.out == QueueEffects(env, s.clientId, Work(task))
    ensures r.s.outbox == s.outbox + QueuePublishes(env, s.clientId, Work(task))
  {
    match task
    case None => Done(s)
    case Some(t) =>
      assert Work(task)[1..] == [];
      QueuePassesCons(env, Work(task));
      RunTaskEmits(env, s, t);
      RunTask(env, s, t)
  }

  // ---------------------------------------------------------------- handshake

  predicate HandshakeAllowed(s: Session) {
    s.advice.reconnect != AdviseNone && s.state == Unconnected
  }

  function HandshakeEnvelope(env: Env): Envelope {
    HandshakeRequest(env.version, env.supportedConnectionTypes)
  }

  /**
   * `handshake`: only from `Unconnected` and only while advice permits;
   * otherwise nothing changes and nothing is sent.
   */
  function Handshake(env: Env, s: Session, cb: HandshakeCallback): (r: Exec)
    ensures r.thrown.None?
    ensures !HandshakeAllowed(s) ==> r == Done(s)
    ensures HandshakeAllowed(s) ==>
              && r.s == s.(state := Connecting)
              && r.out == [Send(HandshakeRequest(env.version, env.supportedConnectionTypes), Some(HandshakeReply(cb)))]
              && r.out[0].message.ChannelField() == MetaHandshake
  {
    if s.advice.reconnect == AdviseNone then Done(s)
    else if s.state != Unconnected then Done(s)
    else Exec(s.(state := Connecting), [Send(HandshakeEnvelope(env), Some(HandshakeReply(cb)))], None)
  }

  /** What a successful handshake runs once the session is set up: nothing, the caller's callback, or `connect`. */
  function RunHandshakeCallback(env: Env, s: Session, cb: HandshakeCallback): (r: Exec)
    ensures cb.NoCallback? ==> r == Done(s)
    ensures cb.UserCallback? ==> r == Exec(s, [Invoke(cb.callback, None)], None)
    ensures cb.ThenConnect? ==> r == Connect(env, s, cb.task)
    ensures IdsAdvance(s, r.s)
  {
    match cb
    case NoCallback => Done(s)
    case UserCallback(c) => Exec(s, [Invoke(c, None)], None)
    case ThenConnect(t) => Connect(env, s, t)
  }

  /**
   * The handshake completion callback exactly as the source writes it: it
   * acts whatever state the client is in by the time the reply arrives.
   */
  function HandshakeResponseAsWritten(env: Env, s: Session, cb: HandshakeCallback, resp: Response): (r: Exec)
    ensures !resp.successful ==>
      r == Exec(s.(state := Unconnected), [Schedule(RetryHandshake(cb), s.advice.interval)], None)
    ensures resp.successful ==>
              && r.s.state == Connected && r.s.clientId == resp.clientId
              && r.s.connectionType == env.select(resp.supportedConnectionTypes)
    ensures resp.successful && cb.NoCallback? ==> r.out == []
    ensures resp.successful && cb.UserCallback? ==> r.out == [Invoke(cb.callback, None)]
    ensures resp.successful && cb.ThenConnect? ==>
      r == Connect(env, s.(state := Connected, clientId := resp.clientId,
                           connectionType := env.select(resp.supportedConnectionTypes)), cb.task)
    ensures IdsAdvance(s, r.s)
  {
    if !resp.successful then
      Exec(s.(state := Unconnected), [Schedule(RetryHandshake(cb), s.advice.interval)], None)
    else
      var s1 := s.(state := Connected, clientId := resp.clientId,
                   connectionType := env.select(resp.supportedConnectionTypes));
      RunHandshakeCallback(env, s1, cb)
  }

  /**
   * The handshake completion callback with the guard the rest of the model
   * uses. A disconnected client ignores every reply. A connected client
   * keeps its session: a late failure is dropped, and a late success only
   * runs the work its handshake carried. Otherwise the reply acts as written.
   */
  function HandshakeReplied(env: Env, s: Session, cb: HandshakeCallback, resp: Response): (r: Exec)
    ensures s.state == Disconnected ==> r == Done(s)
    ensures s.state == Connected && !resp.successful ==> r == Done(s)
    ensures s.state == Connected && resp.successful ==>
      && r.s.state == Connected && r.s.clientId == s.clientId && r.s.connectionType == s.connectionType
      && r == RunHandshakeCallback(env, s, cb)
    ensures (s.state == Unconnected || s.state == Connecting) ==> r == HandshakeResponseAsWritten(env, s, cb, resp)
    ensures (s.state == Unconnected || s.state == Connecting) && !resp.successful ==>
      r == Exec(s.(state := Unconnected), [Schedule(RetryHandshake(cb), s.advice.interval)], None)
    ensures (s.state == Unconnected || s.state == Connecting) && resp.successful ==>
      r.s.state == Connected && r.s.clientId == resp.clientId
    ensures IdsAdvance(s, r.s)
  {
    if s.state == Disconnected then Done(s)
    else if s.state == Connected then
      if !resp.successful then Done(s) else RunHandshakeCallback(env, s, cb)
    else HandshakeResponseAsWritten(env, s, cb, resp)
  }

  // ---------------------------------------------------------------- connect

  /** `_beginReconnectTimeout`: (re)arms the liveness timer. */
  function ArmReconnect(s: Session): Session {
    s.(timers := s.timers + {ReconnectTimer})
  }

  /** Generates a fresh connection id, sends `/meta/connect` and arms the liveness timer. */
  function OpenConnection(s: Session): (r: Exec)
    ensures r.s.connectionId == Some(s.nextId) && r.s.nextId == s.nextId + 1
    ensures ReconnectTimer in r.s.timers
    ensures SessionRequests(r.out) == 1
    ensures r.out == [Send(ConnectRequest(s.clientId, s.connectionType, s.nextId), Some(Verified(ConnectDone))),
                      Arm(ReconnectTimer, s.timeout)]
  {
    var id := s.nextId;
    var s1 := s.(connectionId := Some(id), nextId := id + 1);
    var out := [Send(ConnectRequest(s.clientId, s.connectionType, id), Some(Verified(ConnectDone))),
                Arm(ReconnectTimer, s.timeout)];
    assert SessionRequests(out[1..]) == 0 by {
      assert out[1..][1..] == [];
    }
    Exec(ArmReconnect(s1), [Send(ConnectRequest(s.clientId, s.connectionType, id), Some(Verified(ConnectDone))),
                            Arm(ReconnectTimer, s.timeout)], None)
  }

  /** The handshake `connect` starts when one is allowed; its reply will run `connect` with the same work. */
  function HandshakeCarrying(env: Env, s: Session, task: Option<Task>): seq<Effect> {
    if HandshakeAllowed(s) then [Send(HandshakeEnvelope(env), Some(HandshakeReply(ThenConnect(task))))] else []
  }

  /**
   * The `connect` path taken under advice "handshake" or when unconnected:
   * arm the liveness timer, then handshake and chain back into `connect`.
   */
  function ConnectViaHandshake(env: Env, s: Session, task: Option<Task>): (r: Exec)
    ensures r.thrown.None?
    ensures r.s == (if HandshakeAllowed(s) then ArmReconnect(s).(state := Connecting) else ArmReconnect(s))
    ensures SessionRequests(r.out) == (if HandshakeAllowed(s) then 1 else 0)
    ensures |r.out| > 0 && r.out[0] == Arm(ReconnectTimer, s.timeout)
    ensures r.out == [Arm(ReconnectTimer, s.timeout)] + HandshakeCarrying(env, s, task)
  {
    var h := Handshake(env, ArmReconnect(s), ThenConnect(task));
    SessionRequestsAppend([Arm(ReconnectTimer, s.timeout)], h.out);
    assert h.out != [] ==> SessionRequests(h.out) == 1 by {
      if h.out != [] {
        assert OpensSession(h.out[0]) && h.out[1..] == [];
      }
    }
    Exec(h.s, [Arm(ReconnectTimer, s.timeout)] + h.out, None)
  }

  /** Sets the status "succeeded", firing the deferred work, then resets it to "deferred" unless a task threw. */
  function ReleaseDeferred(env: Env, s: Session): (r: Exec)
    ensures TaskFrame(s, r.s) && SessionRequests(r.out) == 0
    ensures r.thrown.None? ==> r.s.gate == Gate(Deferred, [])
    ensures Valid(s) && s.state == Connected ==> Valid(r.s)
    ensures r.thrown.None? <==> QueuePasses(env, s.gate.queue)
    ensures r.out == QueueEffects(env, s.clientId, s.gate.queue)
    ensures r.s.outbox == s.outbox + QueuePublishes(env, s.clientId, s.gate.queue)
    ensures r.thrown.Some? ==> r.s.gate == Gate(Succeeded, QueueLeft(env, s.gate.queue))
  {
    var s0 := s.(gate := s.gate.(status := Succeeded));
    QueueOpensNoSession(env, s.clientId, s.gate.queue);
    DrainRunsQueue(env, s0);
    DrainQueuesPublishes(env, s0);
    DrainLeavesQueue(env, s0);
    var d := Drain(env, s0);
    if d.thrown.Some? then d
    else Exec(d.s.(gate := d.s.gate.(status := Deferred)), d.out, None)
  }

  /** The `/meta/connect` request `s` would send, and the liveness timer it arms. */
  function ConnectRequestEffects(s: Session): seq<Effect> {
    [Send(ConnectRequest(s.clientId, s.connectionType, s.nextId), Some(Verified(ConnectDone))),
     Arm(ReconnectTimer, s.timeout)]
  }

  /** Runs the caller's work, then opens a connection unless one is already held. */
  function RunThenOpen(env: Env, s: Session, task: Option<Task>): (r: Exec)
    ensures r.s.clientId == s.clientId && r.s.advice == s.advice && r.s.channels == s.channels
    ensures r.s.connectionType == s.connectionType && r.s.timeout == s.timeout && r.s.state == s.state
    ensures r.s.gate == s.gate
    ensures SessionRequests(r.out) == (if s.connectionId.None? && r.thrown.None? then 1 else 0)
    ensures r.s.connectionId != s.connectionId ==>
      s.connectionId.None? && r.s.connectionId == Some(s.nextId) && r.s.nextId == s.nextId + 1
    ensures r.s.connectionId == s.connectionId ==> r.s.nextId == s.nextId
    ensures r.thrown.None? ==> r.s.connectionId.Some?
    ensures s.outbox <= r.s.outbox
    ensures Valid(s) && s.state == Connected ==> Valid(r.s)
    ensures r.thrown.None? <==> QueuePasses(env, Work(task))
    ensures r.out == QueueEffects(env, s.clientId, Work(task))
                     + (if s.connectionId.None? && r.thrown.None? then ConnectRequestEffects(s) else [])
    ensures r.s.outbox == s.outbox + QueuePublishes(env, s.clientId, Work(task))
  {
    var c := RunOptional(env, s, task);
    if c.thrown.Some? || c.s.connectionId.Some? then c
    else
      var o := OpenConnection(c.s);
      SessionRequestsAppend(c.out, o.out);
      Exec(o.s, c.out + o.out, None)
  }

  /**
   * The `connect` path of a connected client: fire the deferred tasks,
   * reset the gate to "deferred", run the caller's task, and open a
   * connection only when none is outstanding.
   */
  function ConnectWhileConnected(env: Env, s: Session, task: Option<Task>): (r: Exec)
    ensures r.s.clientId == s.clientId && r.s.advice == s.advice && r.s.channels == s.channels
    ensures r.s.connectionType == s.connectionType && r.s.timeout == s.timeout && r.s.state == s.state
    ensures SessionRequests(r.out) == (if s.connectionId.None? && r.thrown.None? then 1 else 0)
    ensures r.s.connectionId != s.connectionId ==>
      s.connectionId.None? && r.s.connectionId == Some(s.nextId) && r.s.nextId == s.nextId + 1
    ensures r.s.connectionId == s.connectionId ==> r.s.nextId == s.nextId
    ensures r.thrown.None? ==> r.s.connectionId.Some? && r.s.gate == Gate(Deferred, [])
    ensures s.outbox <= r.s.outbox
    ensures Valid(s) && s.state == Connected ==> Valid(r.s)
    ensures r.thrown.None? <==> QueuePasses(env, s.gate.queue + Work(task))
    ensures r.out == QueueEffects(env, s.clientId, s.gate.queue + Work(task))
                     + (if s.connectionId.None? && r.thrown.None? then ConnectRequestEffects(s) else [])
    ensures r.s.outbox == s.outbox + QueuePublishes(env, s.clientId, s.gate.queue + Work(task))
  {
    var d := ReleaseDeferred(env, s);
    if d.thrown.Some? then
      QueueStopsAtFailure(env, s.clientId, s.gate.queue, Work(task));
      d
    else
      var c := RunThenOpen(env, d.s, task);
      ReleaseThenRun(env, s, task, d, c);
      NoSessionRequestsFirst(d.out, c.out);
      Exec(c.s, d.out + c.out, c.thrown)
  }

  /** Composes what releasing the queue and then running the caller's work emit. */
  lemma ReleaseThenRun(env: Env, s: Session, task: Option<Task>, d: Exec, c: Exec)
    requires QueuePasses(env, s.gate.queue)
    requires d.out == QueueEffects(env, s.clientId, s.gate.queue)
    requires d.s.outbox == s.outbox + QueuePublishes(env, s.clientId, s.gate.queue)
    requires d.s.clientId == s.clientId && d.s.connectionId == s.connectionId && d.s.nextId == s.nextId
    requires d.s.connectionType == s.connectionType && d.s.timeout == s.timeout
    requires c.thrown.None? <==> QueuePasses(env, Work(task))
    requires c.out == QueueEffects(env, d.s.clientId, Work(task))
                      + (if d.s.connectionId.None? && c.thrown.None? then ConnectRequestEffects(d.s) else [])
    requires c.s.outbox == d.s.outbox + QueuePublishes(env, d.s.clientId, Work(task))
    ensures c.thrown.None? <==> QueuePasses(env, s.gate.queue + Work(task))
    ensures d.out + c.out == QueueEffects(env, s.clientId, s.gate.queue + Work(task))
                             + (if s.connectionId.None? && c.thrown.None? then ConnectRequestEffects(s) else [])
    ensures c.s.outbox == s.outbox + QueuePublishes(env, s.clientId, s.gate.queue + Work(task))
  {
    var q, w := s.gate.queue, Work(task);
    QueueAppend(env, s.clientId, q, w);
    var open := if s.connectionId.None? && c.thrown.None? then ConnectRequestEffects(s) else [];
    assert ConnectRequestEffects(d.s) == ConnectRequestEffects(s);
    assert c.out == QueueEffects(env, s.clientId, w) + open;
    AppendAssoc(d.out, QueueEffects(env, s.clientId, w), open);
  }

  /**
   * `connect`. Advice "none" and a disconnected client stop it outright.
   * Advice "handshake" or an unconnected client start a handshake that
   * chains back into `connect`. A handshake in progress queues the work.
   * A connected client runs the queued tasks, then the caller's, and sends
   * `/meta/connect` only when no connect request is outstanding.
   */
  function Connect(env: Env, s: Session, task: Option<Task>): (r: Exec)
    ensures s.advice.reconnect == AdviseNone || s.state == Disconnected ==> r == Done(s)
    ensures r.s.clientId == s.clientId && r.s.advice == s.advice && r.s.channels == s.channels
    ensures r.s.connectionType == s.connectionType && r.s.timeout == s.timeout
    ensures r.s.state == (if HandshakeAllowed(s) then Connecting else s.state)
    ensures r.s.connectionId != s.connectionId ==>
      s.connectionId.None? && r.s.connectionId == Some(s.nextId) && r.s.nextId == s.nextId + 1
    ensures r.s.connectionId == s.connectionId ==> r.s.nextId == s.nextId
    ensures s.state == Connected && s.advice.reconnect == AdviseRetry && r.thrown.None? ==>
      r.s.connectionId.Some? && r.s.gate == Gate(Deferred, [])
    ensures s.state == Connecting && s.advice.reconnect == AdviseRetry && s.gate.status == Deferred ==>
      r.out == [] && r.s == s.(gate := if task.Some? then Defer(s.gate, task.value) else s.gate)
    ensures s.state == Connecting && s.advice.reconnect == AdviseRetry && s.gate.status == Succeeded ==>
      r == RunOptional(env, s, task)
    ensures r.thrown.Some? ==> s.state == Connecting || s.state == Connected
    ensures Valid(s) ==> Valid(r.s)
    ensures s.advice.reconnect != AdviseNone && s.state != Disconnected
            && (s.advice.reconnect == AdviseHandshake || s.state == Unconnected) ==>
      r.out == [Arm(ReconnectTimer, s.timeout)] + HandshakeCarrying(env, s, task)
  {
    if s.advice.reconnect == AdviseNone || s.state == Disconnected then Done(s)
    else if s.advice.reconnect == AdviseHandshake || s.state == Unconnected then ConnectViaHandshake(env, s, task)
    else if s.state == Connecting then RunWhenSucceeded(env, s, task)
    else ConnectWhileConnected(env, s, task)
  }

  /**
   * `connect` sends at most one session request: the handshake when one is
   * allowed, or `/meta/connect` from a connected client holding no
   * connection, unless the work threw first. It never takes envelopes out
   * of the outbox.
   */
  lemma ConnectSessionRequests(env: Env, s: Session, task: Option<Task>)
    ensures var r := Connect(env, s, task);
      && SessionRequests(r.out) ==
           (if HandshakeAllowed(s) then 1
            else if s.state == Connected && s.advice.reconnect == AdviseRetry && s.connectionId.None? && r.thrown.None? then 1
            else 0)
      && s.outbox <= r.s.outbox
  {
    if s.advice.reconnect == AdviseNone || s.state == Disconnected {
    } else if s.advice.reconnect == AdviseHandshake || s.state == Unconnected {
      assert Connect(env, s, task) == ConnectViaHandshake(env, s, task);
    } else if s.state == Connecting {
      assert Connect(env, s, task) == RunWhenSucceeded(env, s, task);
    } else {
      assert Connect(env, s, task) == ConnectWhileConnected(env, s, task);
    }
  }

  // ---------------------------------------------------------------- disconnect

  /** `disconnect`: only from `Connected`; ends the session for good. */
  function Disconnect(s: Session): (r: Exec)
    ensures s.state != Connected ==> r == Done(s)
    ensures s.state == Connected ==>
      && r.s.state == Disconnected
      && r.out == [Send(DisconnectRequest(s.clientId), None), Disarm(ReconnectTimer)]
      && r.s.channels == []
      && r.s.timers == s.timers - {ReconnectTimer}
      && r.s == s.(state := Disconnected, channels := [], timers := s.timers - {ReconnectTimer})
  {
    if s.state != Connected then Done(s)
    else
      Exec(s.(state := Disconnected, channels := ChannelTree.Empty(), timers := s.timers - {ReconnectTimer}),
           [Send(DisconnectRequest(s.clientId), None), Disarm(ReconnectTimer)], None)
  }

  // ---------------------------------------------------------------- replies

  /** The bodies `_verifyClientId` wraps: connect, subscribe and unsubscribe completions. */
  function RunSessionHandler(s: Session, h: SessionHandler, resp: Response): (r: Exec)
    ensures r.thrown.None?
    ensures h.ConnectDone? ==>
      r.s == s.(connectionId := None, timers := s.timers - {ReconnectTimer})
      && r.out == [Disarm(ReconnectTimer), Schedule(ConnectAgain, s.advice.interval)]
    ensures !h.ConnectDone? ==> r.out == [] && r.s == s.(channels := r.s.channels)
    ensures h.SubscribeDone? && !(resp.successful && h.listener.Some?) ==> r.s == s
    ensures h.UnsubscribeDone? && !resp.successful ==> r.s == s
    ensures h.SubscribeDone? && resp.successful && h.listener.Some? ==>
      (forall q :: q in resp.subscription ==> ChannelTree.Lookup(r.s.channels, q) == Some(h.listener))
    ensures h.UnsubscribeDone? && resp.successful ==>
      (forall q :: q in resp.subscription ==> ChannelTree.Lookup(r.s.channels, q) == Some(None))
    ensures forall q :: q !in resp.subscription ==> ChannelTree.Lookup(r.s.channels, q) == ChannelTree.Lookup(s.channels, q)
    ensures ChannelTree.Distinct(s.channels) ==> ChannelTree.Distinct(r.s.channels)
  {
    match h
    case ConnectDone =>
      Exec(s.(connectionId := None, timers := s.timers - {ReconnectTimer}),
           [Disarm(ReconnectTimer), Schedule(ConnectAgain, s.advice.interval)], None)
    case SubscribeDone(l) =>
      if !resp.successful || l.None? then Done(s)
      else Done(s.(channels := ChannelTree.SetAll(s.channels, resp.subscription, l)))
    case UnsubscribeDone =>
      if !resp.successful then Done(s)
      else Done(s.(channels := ChannelTree.SetAll(s.channels, resp.subscription, None)))
  }

  /**
   * `_verifyClientId`: the wrapped handler runs, and the reply is accepted,
   * exactly when the reply's clientId is the session's current one.
   */
  function VerifyClientId(s: Session, h: SessionHandler, resp: Response): (v: Verdict)
    ensures v.accepted <==> resp.clientId == s.clientId
    ensures !v.accepted ==> v.exec == Done(s)
    ensures v.accepted ==> v.exec == RunSessionHandler(s, h, resp)
  {
    if resp.clientId != s.clientId then Verdict(false, Done(s))
    else Verdict(true, RunSessionHandler(s, h, resp))
  }

  // ---------------------------------------------------------------- timers

  /**
   * The liveness timeout: forget the session ids, fall back to `Unconnected`
   * and subscribe again to every registered pattern, which starts a new
   * handshake unless advice forbids it.
   */
  function ReconnectTimeout(env: Env, s: Session): (r: Exec)
    ensures r.thrown.None?
    ensures r.s.clientId == Undefined && r.s.connectionId == None
    ensures r.s.state == (if s.advice.reconnect == AdviseNone then Unconnected else Connecting)
    ensures s.advice.reconnect == AdviseNone ==> r.out == []
    ensures s.advice.reconnect != AdviseNone ==>
      r.out == [Arm(ReconnectTimer, s.timeout),
                Send(HandshakeEnvelope(env),
                     Some(HandshakeReply(ThenConnect(Some(SubscribeTask(ChannelTree.Keys(s.channels), None))))))]
    ensures r.s.channels == s.channels && r.s.outbox == s.outbox && r.s.advice == s.advice
    ensures r.s.nextId >= s.nextId && (r.s.connectionId.Some? ==> r.s.connectionId == Some(s.nextId))
  {
    var s1 := s.(connectionId := None, clientId := Undefined, state := Unconnected);
    Connect(env, s1, Some(SubscribeTask(ChannelTree.Keys(s.channels), None)))
  }

  /** The named liveness timer firing; a timer that is not armed cannot fire. */
  function FireReconnectTimer(env: Env, s: Session): (r: Exec)
    ensures ReconnectTimer !in s.timers ==> r == Done(s)
    ensures ReconnectTimer in s.timers ==>
      && r.thrown.None? && r.s.clientId == Undefined && r.s.connectionId == None
      && r.s.state == (if s.advice.reconnect == AdviseNone then Unconnected else Connecting)
      && (ReconnectTimer in r.s.timers <==> s.advice.reconnect != AdviseNone)
      && r.s.channels == s.channels && r.s.outbox == s.outbox
    ensures IdsAdvance(s, r.s)
  {
    if ReconnectTimer !in s.timers then Done(s)
    else ReconnectTimeout(env, s.(timers := s.timers - {ReconnectTimer}))
  }

  /** The named publish timer firing: it flushes the outbox. */
  function FirePublishTimer(s: Session): (r: Exec)
    ensures PublishTimer !in s.timers ==> r == Done(s)
    ensures PublishTimer in s.timers ==>
      && r.out == [SendBatch(s.outbox)] && r.s.outbox == [] && PublishTimer !in r.s.timers
      && r.s == s.(outbox := [], timers := s.timers - {PublishTimer})
  {
    if PublishTimer !in s.timers then Done(s)
    else Flush(s.(timers := s.timers - {PublishTimer}))
  }

  // ---------------------------------------------------------------- advice & delivery

  /** `handleAdvice`: shallow merge; advice "handshake" nulls the clientId. */
  function HandleAdvice(s: Session, u: AdviceUpdate): (r: Session)
    ensures r.advice.reconnect == (if u.reconnect.Some? then u.reconnect.value else s.advice.reconnect)
    ensures r.advice.interval == (if u.interval.Some? then u.interval.value else s.advice.interval)
    ensures r.clientId == (if r.advice.reconnect == AdviseHandshake then Null else s.clientId)
    ensures r == s.(advice := r.advice, clientId := r.clientId)
  {
    var a := Merge(s.advice, u);
    if a.reconnect == AdviseHandshake then s.(advice := a, clientId := Null) else s.(advice := a)
  }

  /** The listeners one message reaches; `null` entries are skipped. */
  function Invocations(entries: seq<Option<Callback>>, data: Data): (out: seq<Effect>)
    ensures |out| <= |entries|
    ensures forall e :: e in out ==> e.Invoke? && e.data == Some(data) && Some(e.callback) in entries
    ensures forall c :: Some(c) in entries ==> Invoke(c, Some(data)) in out
    ensures forall c :: multiset(out)[Invoke(c, Some(data))] == multiset(entries)[Some(c)]
  {
    if entries == [] then []
    else
      var rest := Invocations(entries[1..], data);
      assert forall x :: x in entries ==> x == entries[0] || x in entries[1..];
      assert entries == [entries[0]] + entries[1..];
      if entries[0].None? then rest else [Invoke(entries[0].value, Some(data))] + rest
  }

  /** `deliverMessages`: every message reaches the listeners of every matching pattern, in order. */
  function DeliverMessages(env: Env, s: Session, messages: seq<Message>): (out: seq<Effect>)
    ensures |messages| == 1 ==>
      out == Invocations(ChannelTree.Glob(s.channels, env.matches, messages[0].channel), messages[0].data)
    ensures forall e :: e in out ==> e.Invoke? && e.data.Some?
    ensures forall e :: e in out ==>
              exists m :: && m in messages && e.data == Some(m.data)
                          && Some(e.callback) in ChannelTree.Glob(s.channels, env.matches, m.channel)
    ensures forall m, c :: m in messages && Some(c) in ChannelTree.Glob(s.channels, env.matches, m.channel) ==>
      Invoke(c, Some(m.data)) in out
  {
    if messages == [] then []
    else
      var m := messages[0];
      var here := Invocations(ChannelTree.Glob(s.channels, env.matches, m.channel), m.data);
      var rest := DeliverMessages(env, s, messages[1..]);
      assert forall x :: x in messages ==> x == m || x in messages[1..];
      here + rest
  }

  /** Messages are delivered in order: delivering a batch is delivering its two halves one after the other. */
  lemma {:induction false} DeliverMessagesAppend(env: Env, s: Session, ms1: seq<Message>, ms2: seq<Message>)
    ensures DeliverMessages(env, s, ms1 + ms2) == DeliverMessages(env, s, ms1) + DeliverMessages(env, s, ms2)
  {
    if ms1 == [] {
      assert ms1 + ms2 == ms2;
    } else {
      assert (ms1 + ms2)[0] == ms1[0] && (ms1 + ms2)[1..] == ms1[1..] + ms2;
      DeliverMessagesAppend(env, s, ms1[1..], ms2);
    }
  }

  // ---------------------------------------------------------------- events

  datatype Event =
    | CallHandshake(callback: Option<Callback>)
    | CallConnect(callback: Option<Callback>)
    | CallDisconnect
    | CallSubscribe(channels: seq<Channel>, listener: Option<Callback>)
    | CallUnsubscribe(channels: seq<Channel>)
    | CallPublish(channel: Channel, data: Data)
    | CallHandleAdvice(update: AdviceUpdate)
    | CallDeliverMessages(messages: seq<Message>)
    | Replied(handler: ReplyHandler, response: Response)
    | ReconnectTimerFired
    | PublishTimerFired
    | DelayedCallFired(call: DelayedCall)
  {
    /** The client's public methods, as opposed to transport and timer callbacks. */
    predicate IsPublicCall() {
      !(Replied? || ReconnectTimerFired? || PublishTimerFired? || DelayedCallFired?)
    }
  }

  /**
   * One transition of the client: the handler the event runs, run to
   * completion. The endpoint and timeout never change, delivery changes no
   * state, and a reply the client no longer waits for is dropped.
   */
  function Step(env: Env, s: Session, e: Event): (r: Exec)
    ensures e.CallDeliverMessages? ==> r.s == s && r.thrown.None?
    ensures e.CallHandleAdvice? ==> r.out == [] && r.thrown.None? && r.s.state == s.state && r.s == HandleAdvice(s, e.update)
    ensures e.Replied? && e.handler.Verified? && e.response.clientId != s.clientId ==> r == Done(s)
    ensures e.Replied? && e.handler.HandshakeReply? && s.state == Disconnected ==> r == Done(s)
  {
    match e
    case CallHandshake(cb) => Handshake(env, s, if cb.Some? then UserCallback(cb.value) else NoCallback)
    case CallConnect(cb) => Connect(env, s, if cb.Some? then Some(UserTask(cb.value)) else None)
    case CallDisconnect => Disconnect(s)
    case CallSubscribe(chs, l) => Connect(env, s, Some(SubscribeTask(chs, l)))
    case CallUnsubscribe(chs) => Connect(env, s, Some(UnsubscribeTask(chs)))
    case CallPublish(ch, d) => Connect(env, s, Some(PublishTask(ch, d)))
    case CallHandleAdvice(u) => Done(HandleAdvice(s, u))
    case CallDeliverMessages(ms) => Exec(s, DeliverMessages(env, s, ms), None)
    case Replied(HandshakeReply(cb), resp) => HandshakeReplied(env, s, cb, resp)
    case Replied(Verified(h), resp) => VerifyClientId(s, h, resp).exec
    case ReconnectTimerFired => FireReconnectTimer(env, s)
    case PublishTimerFired => FirePublishTimer(s)
    case DelayedCallFired(RetryHandshake(cb)) => Handshake(env, s, cb)
    case DelayedCallFired(ConnectAgain) => Connect(env, s, None)
  }
}

=== FILE: client_properties.dfy ===
/**
 * Properties of the client state machine that relate several transitions:
 * the session invariant, the terminal disconnected state, the guards that
 * keep at most one handshake or connect request in flight, publish
 * batching, the subscribe/deliver/unsubscribe round trip and the filtering
 * of stale replies.
 */
module ClientProperties {
  import opened Wrappers
  import opened Bayeux
  import ChannelTree
  import opened Deferrable
  import opened Client

  /** Runs events one after another; a call that throws still leaves its changes behind. */
  function RunAll(env: Env, s: Session, events: seq<Event>): (Session, seq<Effect>)
    decreases |events|
  {
    if events == [] then (s, [])
    else
      var x := Step(env, s, events[0]);
      var rest := RunAll(env, x.s, events[1..]);
      (rest.0, x.out + rest.1)
  }

  lemma RunAllCons(env: Env, s: Session, events: seq<Event>)
    requires events != []
    ensures var x := Step(env, s, events[0]);
      RunAll(env, s, events) == (RunAll(env, x.s, events[1..]).0, x.out + RunAll(env, x.s, events[1..]).1)
  {
  }

  /** A first event that changes the session to `s1` and emits nothing drops out of the run. */
  lemma RunAllSilentFirst(env: Env, s: Session, events: seq<Event>, s1: Session)
    requires events != [] && Step(env, s, events[0]).s == s1 && Step(env, s, events[0]).out == []
    ensures RunAll(env, s, events) == RunAll(env, s1, events[1..])
  {
    assert [] + RunAll(env, s1, events[1..]).1 == RunAll(env, s1, events[1..]).1;
  }

  lemma RunAllFirst(env: Env, s: Session, events: seq<Event>)
    requires events != []
    ensures RunAll(env, s, events).0 == RunAll(env, Step(env, s, events[0]).s, events[1..]).0
  {
  }

  lemma {:induction false} NoSendsNoRequests(out: seq<Effect>)
    requires forall i :: 0 <= i < |out| ==> !out[i].Send?
    ensures SessionRequests(out) == 0
  {
    if out != [] {
      NoSendsNoRequests(out[1..]);
    }
  }

  // ---------------------------------------------------------------- invariant

  /** Every transition keeps the session invariant. */
  lemma StepPreservesValid(env: Env, s: Session, e: Event)
    requires Valid(s)
    ensures Valid(Step(env, s, e).s)
  {
    match e
    case Replied(HandshakeReply(cb), resp) =>
      if s.state == Connecting && resp.successful && cb.ThenConnect? {
        var s1 := s.(state := Connected, clientId := resp.clientId,
                     connectionType := env.select(resp.supportedConnectionTypes));
        assert Valid(s1);
      }
    case ReconnectTimerFired =>
      if ReconnectTimer in s.timers {
        var s1 := s.(timers := s.timers - {ReconnectTimer});
        assert Valid(s1.(connectionId := None, clientId := Undefined, state := Unconnected));
      }
    case _ =>
  }

  /**
   * Connection ids are fresh: no transition lowers `nextId`, and a
   * connection id a transition sets is the one it just generated.
   */
  lemma StepIdsAdvance(env: Env, s: Session, e: Event)
    ensures IdsAdvance(s, Step(env, s, e).s)
  {
    match e
    case Replied(HandshakeReply(cb), resp) =>
      assert IdsAdvance(s, HandshakeReplied(env, s, cb, resp).s);
    case Replied(Verified(h), resp) =>
      assert IdsAdvance(s, VerifyClientId(s, h, resp).exec.s);
    case ReconnectTimerFired =>
      assert IdsAdvance(s, FireReconnectTimer(env, s).s);
    case CallConnect(cb) =>
      assert IdsAdvance(s, Connect(env, s, if cb.Some? then Some(UserTask(cb.value)) else None).s);
    case CallSubscribe(chs, l) =>
      assert IdsAdvance(s, Connect(env, s, Some(SubscribeTask(chs, l))).s);
    case CallUnsubscribe(chs) =>
      assert IdsAdvance(s, Connect(env, s, Some(UnsubscribeTask(chs))).s);
    case CallPublish(ch, d) =>
      assert IdsAdvance(s, Connect(env, s, Some(PublishTask(ch, d))).s);
    case DelayedCallFired(ConnectAgain) =>
      assert IdsAdvance(s, Connect(env, s, None).s);
    case _ =>
  }

  /** Only the events that run application work can throw. */
  lemma StepThrowsOnlyFromWork(env: Env, s: Session, e: Event)
    ensures Step(env, s, e).thrown.Some? ==>
      || e.CallConnect? || e.CallSubscribe? || e.CallUnsubscribe? || e.CallPublish?
      || e == DelayedCallFired(ConnectAgain) || (e.Replied? && e.handler.HandshakeReply?)
  {
    match e
    case CallHandshake(cb) =>
      assert Step(env, s, e).thrown == Handshake(env, s, if cb.Some? then UserCallback(cb.value) else NoCallback).thrown;
    case CallDisconnect =>
      assert Step(env, s, e).thrown == Disconnect(s).thrown;
    case CallHandleAdvice(u) =>
    case CallDeliverMessages(ms) =>
    case Replied(Verified(h), resp) =>
      assert Step(env, s, e).thrown == VerifyClientId(s, h, resp).exec.thrown;
    case ReconnectTimerFired =>
      assert Step(env, s, e).thrown == FireReconnectTimer(env, s).thrown;
    case PublishTimerFired =>
      assert Step(env, s, e).thrown == FirePublishTimer(s).thrown;
    case DelayedCallFired(RetryHandshake(cb)) =>
      assert Step(env, s, e).thrown == Handshake(env, s, cb).thrown;
    case _ =>
  }

  /**
   * Once disconnected, the client stays disconnected: no transition sends a
   * request, and the only thing that can still leave is the outbox queued
   * before the disconnect.
   */
  lemma DisconnectedIsTerminal(env: Env, s: Session, e: Event)
    requires Valid(s) && s.state == Disconnected
    ensures Step(env, s, e).s.state == Disconnected
    ensures forall i :: 0 <= i < |Step(env, s, e).out| ==> !Step(env, s, e).out[i].Send?
    ensures forall i :: 0 <= i < |Step(env, s, e).out| && Step(env, s, e).out[i].SendBatch? ==>
      Step(env, s, e).out[i].messages == s.outbox
    ensures |Step(env, s, e).s.outbox| <= |s.outbox|
  {
    var r := Step(env, s, e);
    match e
    case CallDeliverMessages(ms) =>
      forall i | 0 <= i < |r.out|
        ensures r.out[i].Invoke?
      {
        assert r.out[i] in r.out;
      }
    case _ =>
  }

  /** After `disconnect`, `handshake`, `connect` and `disconnect` change nothing and send nothing. */
  lemma DisconnectEndsSession(env: Env, s: Session, cb: Option<Callback>)
    requires s.state == Connected
    ensures var d := Step(env, s, CallDisconnect).s;
      && Step(env, d, CallHandshake(cb)) == Done(d)
      && Step(env, d, CallConnect(cb)) == Done(d)
      && Step(env, d, CallDisconnect) == Done(d)
  {
  }

  // ---------------------------------------------------------------- at most one request in flight

  /** How many session-opening requests the client may still send without hearing from the server. */
  function Potential(s: Session): nat {
    if s.state == Unconnected || (s.state == Connected && s.connectionId.None?) then 1 else 0
  }

  lemma CallSpendsPotential(env: Env, s: Session, e: Event)
    requires e.IsPublicCall()
    ensures SessionRequests(Step(env, s, e).out) + Potential(Step(env, s, e).s) <= Potential(s)
  {
    var r := Step(env, s, e);
    match e
    case CallHandshake(cb) =>
      if r.out != [] {
        assert r.out[1..] == [];
      }
    case CallDisconnect =>
      if s.state == Connected {
        NoSendsNoRequests(r.out[1..]);
      }
    case CallDeliverMessages(ms) =>
      forall i | 0 <= i < |r.out|
        ensures !r.out[i].Send?
      {
        assert r.out[i] in r.out;
      }
      NoSendsNoRequests(r.out);
    case _ =>
  }

  /**
   * However many public calls the application makes between two server
   * replies or timer firings, at most one handshake or connect request is
   * sent, and none while a handshake is already in progress.
   */
  lemma {:induction false} AtMostOneSessionRequestPerBurst(env: Env, s: Session, calls: seq<Event>)
    requires forall i :: 0 <= i < |calls| ==> calls[i].IsPublicCall()
    ensures SessionRequests(RunAll(env, s, calls).1) <= Potential(s)
    ensures SessionRequests(RunAll(env, s, calls).1) <= 1
    ensures s.state == Connecting ==> SessionRequests(RunAll(env, s, calls).1) == 0
    decreases |calls|
  {
    if calls != [] {
      var x := Step(env, s, calls[0]);
      CallSpendsPotential(env, s, calls[0]);
      AtMostOneSessionRequestPerBurst(env, x.s, calls[1..]);
      SessionRequestsAppend(x.out, RunAll(env, x.s, calls[1..]).1);
    }
  }

  /**
   * A matching connect reply releases the guard: the connection id is
   * cleared, the liveness timer cancelled and a new `connect` scheduled,
   * successful or not; when that scheduled call fires it sends exactly one
   * connect request under a fresh id.
   */
  lemma ConnectReplyReopens(env: Env, s: Session, resp: Response)
    requires Valid(s) && s.state == Connected && s.advice.reconnect == AdviseRetry
    requires s.connectionId.Some? && resp.clientId == s.clientId && s.gate.queue == []
    ensures var r := Step(env, s, Replied(Verified(ConnectDone), resp));
      && r.s.connectionId.None? && ReconnectTimer !in r.s.timers
      && r.out == [Disarm(ReconnectTimer), Schedule(ConnectAgain, s.advice.interval)]
      && var again := Step(env, r.s, DelayedCallFired(ConnectAgain));
         && SessionRequests(again.out) == 1
         && again.s.connectionId == Some(s.nextId)
         && s.connectionId.value < s.nextId
  {
  }

  /**
   * A connected client releases the queued work in order, then runs the
   * caller's, and only then sends `/meta/connect`, and only when no connect
   * request is outstanding. Work that fails validation throws and stops
   * everything behind it, including the connect request.
   */
  lemma ConnectedRunsQueueThenWork(env: Env, s: Session, task: Option<Task>)
    requires s.state == Connected && s.advice.reconnect == AdviseRetry
    ensures var r := Connect(env, s, task);
      && (r.thrown.None? <==> QueuePasses(env, s.gate.queue + Work(task)))
      && r.out == QueueEffects(env, s.clientId, s.gate.queue + Work(task))
                  + (if s.connectionId.None? && r.thrown.None? then ConnectRequestEffects(s) else [])
      && r.s.outbox == s.outbox + QueuePublishes(env, s.clientId, s.gate.queue + Work(task))
      && (r.thrown.None? ==> r.s.gate == Gate(Deferred, []))
  {
    assert Connect(env, s, task) == ConnectWhileConnected(env, s, task);
  }

  /**
   * The caller's `connect` callback comes after every queued piece of work
   * and before the connect request; with a queue of plain callbacks, each is
   * invoked once, in order.
   */
  lemma ConnectRunsQueueThenCaller(env: Env, s: Session, c: Callback)
    requires s.state == Connected && s.advice.reconnect == AdviseRetry
    ensures var r := Connect(env, s, Some(UserTask(c)));
      && (r.thrown.None? <==> QueuePasses(env, s.gate.queue))
      && (r.thrown.None? ==>
            r.out == QueueEffects(env, s.clientId, s.gate.queue) + [Invoke(c, None)]
                     + (if s.connectionId.None? then ConnectRequestEffects(s) else []))
      && ((forall i :: 0 <= i < |s.gate.queue| ==> s.gate.queue[i].UserTask?) ==>
            r.out == UserInvocations(s.gate.queue) + [Invoke(c, None)]
                     + (if s.connectionId.None? then ConnectRequestEffects(s) else []))
  {
    var q := s.gate.queue;
    ConnectedRunsQueueThenWork(env, s, Some(UserTask(c)));
    assert Work(Some(UserTask(c))) == [UserTask(c)];
    assert QueuePasses(env, [UserTask(c)]);
    assert QueueEffects(env, s.clientId, [UserTask(c)]) == [Invoke(c, None)];
    if QueuePasses(env, q) {
      QueueAppend(env, s.clientId, q, [UserTask(c)]);
    } else {
      QueueStopsAtFailure(env, s.clientId, q, [UserTask(c)]);
    }
    if forall i :: 0 <= i < |q| ==> q[i].UserTask? {
      UserQueueEffects(env, s.clientId, q);
    }
  }

  /** A queue of plain callbacks always passes, and running it invokes each callback once, in order. */
  lemma {:induction false} UserQueueEffects(env: Env, clientId: IdField, q: seq<Task>)
    requires forall i :: 0 <= i < |q| ==> q[i].UserTask?
    ensures QueuePasses(env, q)
    ensures QueueEffects(env, clientId, q) == UserInvocations(q)
  {
    if q != [] {
      UserQueueEffects(env, clientId, q[1..]);
      QueuePassesCons(env, q);
    }
  }

  function UserInvocations(q: seq<Task>): seq<Effect>
    requires forall i :: 0 <= i < |q| ==> q[i].UserTask?
  {
    if q == [] then [] else [Invoke(q[0].callback, None)] + UserInvocations(q[1..])
  }

  lemma {:induction false} DrainUserTasks(env: Env, s: Session)
    requires forall i :: 0 <= i < |s.gate.queue| ==> s.gate.queue[i].UserTask?
    ensures Drain(env, s) == Exec(s.(gate := s.gate.(queue := [])), UserInvocations(s.gate.queue), None)
    decreases |s.gate.queue|
  {
    if s.gate.queue != [] {
      var s1 := s.(gate := s.gate.(queue := s.gate.queue[1..]));
      DrainUserTasks(env, s1);
    }
  }

  /**
   * A handshake reply that arrives after another handshake has connected the
   * client keeps the live session, yet still runs the work it carried: the
   * caller's `connect` callback is invoked.
   */
  lemma SupersededHandshakeRunsCallback(env: Env, s: Session, c: Callback, resp: Response)
    requires s.state == Connected && s.advice.reconnect == AdviseRetry && resp.successful
    requires QueuePasses(env, s.gate.queue)
    ensures var r := Step(env, s, Replied(HandshakeReply(ThenConnect(Some(UserTask(c)))), resp));
      && r.s.state == Connected && r.s.clientId == s.clientId
      && Invoke(c, None) in r.out
  {
    var cb := ThenConnect(Some(UserTask(c)));
    var r := Connect(env, s, Some(UserTask(c)));
    assert Step(env, s, Replied(HandshakeReply(cb), resp)) == HandshakeReplied(env, s, cb, resp);
    assert HandshakeReplied(env, s, cb, resp) == RunHandshakeCallback(env, s, cb) == r;
    ConnectRunsQueueThenCaller(env, s, c);
    InMiddle(QueueEffects(env, s.clientId, s.gate.queue), Invoke(c, None),
             if s.connectionId.None? then ConnectRequestEffects(s) else []);
  }

  lemma InMiddle<T>(a: seq<T>, x: T, b: seq<T>)
    ensures x in a + [x] + b
  {
    assert (a + [x] + b)[|a|] == x;
  }

  // ---------------------------------------------------------------- work handed over before the session is up

  /** The public call that hands `t` to `connect`. */
  function TaskCall(t: Task): Event {
    match t
    case UserTask(c) => CallConnect(Some(c))
    case SubscribeTask(chs, l) => CallSubscribe(chs, l)
    case UnsubscribeTask(chs) => CallUnsubscribe(chs)
    case PublishTask(ch, d) => CallPublish(ch, d)
  }

  function TaskCalls(ts: seq<Task>): (calls: seq<Event>)
    ensures |calls| == |ts|
  {
    if ts == [] then [] else [TaskCall(ts[0])] + TaskCalls(ts[1..])
  }

  /** While a handshake is in progress, every call's work joins the queue behind "succeeded", in call order, and nothing is sent. */
  lemma {:induction false} CallsQueueWhileConnecting(env: Env, s: Session, ts: seq<Task>)
    requires s.state == Connecting && s.advice.reconnect == AdviseRetry && s.gate.status == Deferred
    ensures RunAll(env, s, TaskCalls(ts)) == (s.(gate := Gate(Deferred, s.gate.queue + ts)), [])
    decreases |ts|
  {
    if ts == [] {
      assert s.gate.queue + ts == s.gate.queue;
    } else {
      var calls := TaskCalls(ts);
      TaskCallsCons(ts);
      CallQueues(env, s, ts[0]);
      var s1 := s.(gate := Gate(Deferred, s.gate.queue + [ts[0]]));
      RunAllSilentFirst(env, s, calls, s1);
      CallsQueueWhileConnecting(env, s1, ts[1..]);
      AppendCons(s.gate.queue, ts);
    }
  }

  lemma TaskCallsCons(ts: seq<Task>)
    requires ts != []
    ensures TaskCalls(ts)[0] == TaskCall(ts[0]) && TaskCalls(ts)[1..] == TaskCalls(ts[1..])
  {
  }

  lemma AppendCons<T>(q: seq<T>, ts: seq<T>)
    requires ts != []
    ensures (q + [ts[0]]) + ts[1..] == q + ts
  {
    assert ts == [ts[0]] + ts[1..];
  }

  /** One call while a handshake is in progress queues its work and emits nothing. */
  lemma CallQueues(env: Env, s: Session, t: Task)
    requires s.state == Connecting && s.advice.reconnect == AdviseRetry && s.gate.status == Deferred
    ensures Step(env, s, TaskCall(t)) == Exec(s.(gate := Gate(Deferred, s.gate.queue + [t])), [], None)
  {
    StepTaskCall(env, s, t);
    var r := Connect(env, s, Some(t));
    assert r.out == [] && r.s == s.(gate := Defer(s.gate, t));
    assert r == RunWhenSucceeded(env, s, Some(t));
  }

  /**
   * After a queued task threw during a release, the gate stays "succeeded";
   * a call made while the next handshake is in progress then runs its work
   * at once, with whatever clientId the session holds, instead of queueing it.
   */
  lemma CallRunsAtOnceWhenSucceeded(env: Env, s: Session, t: Task)
    requires s.state == Connecting && s.advice.reconnect == AdviseRetry && s.gate.status == Succeeded
    ensures var r := Step(env, s, TaskCall(t));
      && (r.thrown.None? <==> TaskPasses(env, t))
      && r.out == (if TaskPasses(env, t) then TaskEffects(env, s.clientId, t) else [])
      && r.s.gate == s.gate
      && r.s.outbox == s.outbox + (if TaskPasses(env, t) then TaskPublishes(s.clientId, t) else [])
  {
    StepTaskCall(env, s, t);
    assert Connect(env, s, Some(t)) == RunOptional(env, s, Some(t));
    RunTaskEmits(env, s, t);
  }

  lemma StepTaskCall(env: Env, s: Session, t: Task)
    ensures Step(env, s, TaskCall(t)) == Connect(env, s, Some(t))
  {
    match t
    case UserTask(c) =>
      assert Step(env, s, CallConnect(Some(c))) == Connect(env, s, Some(UserTask(c)));
    case SubscribeTask(chs, l) =>
      assert Step(env, s, CallSubscribe(chs, l)) == Connect(env, s, Some(SubscribeTask(chs, l)));
    case UnsubscribeTask(chs) =>
      assert Step(env, s, CallUnsubscribe(chs)) == Connect(env, s, Some(UnsubscribeTask(chs)));
    case PublishTask(ch, d) =>
      assert Step(env, s, CallPublish(ch, d)) == Connect(env, s, Some(PublishTask(ch, d)));
  }

  /**
   * `connect(c0)` on an unconnected client sends one handshake, which
   * carries `connect` with `c0`. Every call made while that handshake is in
   * progress only queues its work. The successful reply connects the client
   * and runs the queued work in call order, then `c0`, then sends one
   * `/meta/connect`; work that fails validation throws and stops everything
   * behind it.
   */
  lemma HandshakeRunsWorkHandedOver(env: Env, s: Session, c0: Callback, ts: seq<Task>, resp: Response)
    requires Valid(s) && s.state == Unconnected && s.advice.reconnect == AdviseRetry
    requires s.gate == Gate(Deferred, []) && resp.successful
    ensures var e1 := Step(env, s, CallConnect(Some(c0)));
      && e1.out == [Arm(ReconnectTimer, s.timeout),
                    Send(HandshakeEnvelope(env), Some(HandshakeReply(ThenConnect(Some(UserTask(c0))))))]
      && SessionRequests(e1.out) == 1
      && var burst := RunAll(env, e1.s, TaskCalls(ts));
         && burst.1 == [] && burst.0.gate == Gate(Deferred, ts)
         && var x := Step(env, burst.0, Replied(e1.out[1].reply.value, resp));
            && x.s.state == Connected && x.s.clientId == resp.clientId
            && (x.thrown.None? <==> QueuePasses(env, ts))
            && x.out == QueueEffects(env, resp.clientId, ts + [UserTask(c0)])
                        + (if x.thrown.None?
                           then [Send(ConnectRequest(resp.clientId, env.select(resp.supportedConnectionTypes), s.nextId),
                                      Some(Verified(ConnectDone))),
                                 Arm(ReconnectTimer, s.timeout)]
                           else [])
  {
    var e1 := Step(env, s, CallConnect(Some(c0)));
    assert e1 == Connect(env, s, Some(UserTask(c0)));
    assert e1.s == ArmReconnect(s).(state := Connecting);
    assert e1.out[1..][1..] == [];
    CallsQueueWhileConnecting(env, e1.s, ts);
    ReplyRunsQueuedWork(env, e1.s.(gate := Gate(Deferred, ts)), c0, resp);
  }

  /** The successful reply to a handshake carrying `connect(c0)` runs the queued work, then `c0`, then opens a connection. */
  lemma ReplyRunsQueuedWork(env: Env, s: Session, c0: Callback, resp: Response)
    requires s.state == Connecting && s.advice.reconnect == AdviseRetry && s.connectionId.None?
    requires s.gate.status == Deferred && resp.successful
    ensures var x := Step(env, s, Replied(HandshakeReply(ThenConnect(Some(UserTask(c0)))), resp));
      && x.s.state == Connected && x.s.clientId == resp.clientId
      && (x.thrown.None? <==> QueuePasses(env, s.gate.queue))
      && x.out == QueueEffects(env, resp.clientId, s.gate.queue + [UserTask(c0)])
                  + (if x.thrown.None?
                     then [Send(ConnectRequest(resp.clientId, env.select(resp.supportedConnectionTypes), s.nextId),
                                Some(Verified(ConnectDone))),
                           Arm(ReconnectTimer, s.timeout)]
                     else [])
  {
    var cb := ThenConnect(Some(UserTask(c0)));
    var s3 := s.(state := Connected, clientId := resp.clientId,
                 connectionType := env.select(resp.supportedConnectionTypes));
    assert Step(env, s, Replied(HandshakeReply(cb), resp)) == HandshakeReplied(env, s, cb, resp);
    assert HandshakeReplied(env, s, cb, resp) == HandshakeResponseAsWritten(env, s, cb, resp);
    assert HandshakeResponseAsWritten(env, s, cb, resp) == Connect(env, s3, Some(UserTask(c0)));
    ConnectedRunsQueueThenWork(env, s3, Some(UserTask(c0)));
    assert Work(Some(UserTask(c0))) == [UserTask(c0)];
    assert QueuePasses(env, [UserTask(c0)]);
    if QueuePasses(env, s.gate.queue) {
      QueueAppend(env, resp.clientId, s.gate.queue, [UserTask(c0)]);
    } else {
      QueueStopsAtFailure(env, resp.clientId, s.gate.queue, [UserTask(c0)]);
    }
  }

  // ---------------------------------------------------------------- advice

  /** Applying the same advice twice is applying it once. */
  lemma HandleAdviceIdempotent(s: Session, u: AdviceUpdate)
    ensures HandleAdvice(HandleAdvice(s, u), u) == HandleAdvice(s, u)
  {
    MergeIdempotent(s.advice, u);
  }

  /**
   * Advice "none" halts the client: until new advice arrives, no event
   * sends a handshake or connect request, and the advice stays "none".
   */
  lemma AdviceNoneHalts(env: Env, s: Session, e: Event)
    requires s.advice.reconnect == AdviseNone && !e.CallHandleAdvice?
    ensures SessionRequests(Step(env, s, e).out) == 0
    ensures Step(env, s, e).s.advice.reconnect == AdviseNone
  {
    var r := Step(env, s, e);
    match e
    case CallDeliverMessages(ms) =>
      forall i | 0 <= i < |r.out|
        ensures !r.out[i].Send?
      {
        assert r.out[i] in r.out;
      }
      NoSendsNoRequests(r.out);
    case CallDisconnect =>
      if s.state == Connected {
        NoSendsNoRequests(r.out[1..]);
      }
    case Replied(HandshakeReply(cb), resp) =>
      NoSendsNoRequests(r.out);
    case Replied(Verified(h), resp) =>
      NoSendsNoRequests(r.out);
    case PublishTimerFired =>
      NoSendsNoRequests(r.out);
    case _ =>
  }

  /**
   * Advice "handshake" invalidates the session id at once, so a connect,
   * subscribe or unsubscribe reply still carrying the old id is discarded.
   */
  lemma AdviceHandshakeDiscardsOldReplies(env: Env, s: Session, h: SessionHandler, resp: Response)
    requires resp.clientId == s.clientId && s.clientId.Id?
    ensures var s1 := Step(env, s, CallHandleAdvice(AdviceUpdate(Some(AdviseHandshake), None))).s;
      && s1.clientId == Null
      && Step(env, s1, Replied(Verified(h), resp)) == Done(s1)
  {
  }

  /**
   * `handshake(c)` on an unconnected client sends one `/meta/handshake`
   * whose reply handler carries `c`. A successful reply fed to that handler
   * connects the client and invokes `c` exactly once; a failed one falls
   * back to unconnected and schedules another handshake carrying `c`.
   */
  lemma HandshakeCallRunsCallback(env: Env, s: Session, c: Callback, resp: Response)
    requires s.state == Unconnected && s.advice.reconnect != AdviseNone
    ensures var h := Step(env, s, CallHandshake(Some(c)));
      && h.out == [Send(HandshakeEnvelope(env), Some(HandshakeReply(UserCallback(c))))]
      && h.s == s.(state := Connecting)
      && var x := Step(env, h.s, Replied(h.out[0].reply.value, resp));
         && (resp.successful ==>
               x.s.state == Connected && x.s.clientId == resp.clientId && x.out == [Invoke(c, None)])
         && (!resp.successful ==>
               x.s.state == Unconnected && x.out == [Schedule(RetryHandshake(UserCallback(c)), s.advice.interval)])
  {
    var s1 := s.(state := Connecting);
    StepRunsHandshakeReply(env, s1, UserCallback(c), resp);
  }

  /** A handshake reply is handled by the guarded handshake callback. */
  lemma StepRunsHandshakeReply(env: Env, s: Session, cb: HandshakeCallback, resp: Response)
    ensures Step(env, s, Replied(HandshakeReply(cb), resp)) == HandshakeReplied(env, s, cb, resp)
  {
    match Replied(HandshakeReply(cb), resp)
    case Replied(HandshakeReply(c), r) =>
  }

  // ---------------------------------------------------------------- replies

  /** A reply carrying another session's clientId changes nothing and emits nothing. */
  lemma StaleRepliesIgnored(env: Env, s: Session, h: SessionHandler, resp: Response)
    requires resp.clientId != s.clientId
    ensures Step(env, s, Replied(Verified(h), resp)) == Done(s)
  {
  }

  /** Subscription bookkeeping changes only on a successful reply (with a callback, for subscribe). */
  lemma FailedRepliesKeepRegistry(env: Env, s: Session, h: SessionHandler, resp: Response)
    requires !h.ConnectDone? && !resp.successful
    ensures Step(env, s, Replied(Verified(h), resp)) == Done(s)
  {
  }

  // ---------------------------------------------------------------- publish batching

  function PublishCalls(messages: seq<Message>): (calls: seq<Event>)
    ensures |calls| == |messages|
    ensures forall i :: 0 <= i < |calls| ==> calls[i] == CallPublish(messages[i].channel, messages[i].data)
  {
    if messages == [] then []
    else [CallPublish(messages[0].channel, messages[0].data)] + PublishCalls(messages[1..])
  }

  function PublishEnvelopes(messages: seq<Message>, clientId: IdField): seq<Envelope> {
    if messages == [] then []
    else [PublishRequest(messages[0].channel, messages[0].data, clientId)] + PublishEnvelopes(messages[1..], clientId)
  }

  /** One publish while connected with nothing queued: the envelope joins the outbox and nothing is thrown. */
  lemma PublishWhileConnected(env: Env, s: Session, ch: Channel, d: Data)
    requires Valid(s) && s.state == Connected && s.advice.reconnect == AdviseRetry
    requires s.gate == Gate(Deferred, []) && Acceptable(env, ch)
    ensures var x := Step(env, s, CallPublish(ch, d));
      && x.thrown.None? && Valid(x.s) && x.s.state == Connected
      && x.s.clientId == s.clientId && x.s.advice == s.advice && x.s.gate == Gate(Deferred, [])
      && x.s.outbox == s.outbox + [PublishRequest(ch, d, s.clientId)]
      && x.out == [Arm(PublishTimer, env.maxDelay)] + (if s.connectionId.None? then ConnectRequestEffects(s) else [])
  {
    var s0 := s.(gate := s.gate.(status := Succeeded));
    assert Drain(env, s0) == Done(s0);
    assert ValidateChannels(env, [ch]).Pass?;
    var s2 := s0.(gate := s0.gate.(status := Deferred));
    var c := RunOptional(env, s2, Some(PublishTask(ch, d)));
    assert c.thrown.None?;
    assert c.s.outbox == s.outbox + [PublishRequest(ch, d, s.clientId)];
    assert c.out == [Arm(PublishTimer, env.maxDelay)];
  }

  /** No effect sends a publish envelope, on its own or in a batch. */
  predicate SendsNoPublish(out: seq<Effect>) {
    forall i :: 0 <= i < |out| ==> !out[i].SendBatch? && !(out[i].Send? && out[i].message.PublishRequest?)
  }

  /** The publish timer sends the whole outbox of a valid session as one batch and empties it. */
  lemma PublishTimerFlushes(env: Env, s: Session)
    requires Valid(s) && s.outbox != []
    ensures Step(env, s, PublishTimerFired).out == [SendBatch(s.outbox)]
    ensures Step(env, s, PublishTimerFired).s.outbox == []
    ensures Valid(Step(env, s, PublishTimerFired).s)
  {
  }

  lemma PublishEnvelopesCons(outbox: seq<Envelope>, messages: seq<Message>, clientId: IdField)
    requires messages != []
    ensures outbox + PublishEnvelopes(messages, clientId)
         == (outbox + [PublishRequest(messages[0].channel, messages[0].data, clientId)])
            + PublishEnvelopes(messages[1..], clientId)
  {
  }

  /** The session half of `PublishWhileConnected`, the part the induction below carries. */
  lemma PublishKeepsSession(env: Env, s: Session, ch: Channel, d: Data)
    requires Valid(s) && s.state == Connected && s.advice.reconnect == AdviseRetry
    requires s.gate == Gate(Deferred, []) && Acceptable(env, ch)
    ensures var s' := Step(env, s, CallPublish(ch, d)).s;
      && Valid(s') && s'.state == Connected && s'.clientId == s.clientId && s'.advice == s.advice
      && s'.gate == Gate(Deferred, []) && s'.outbox == s.outbox + [PublishRequest(ch, d, s.clientId)]
  {
    PublishWhileConnected(env, s, ch, d);
  }

  lemma AcceptableTail(env: Env, messages: seq<Message>)
    requires messages != []
    requires forall i :: 0 <= i < |messages| ==> Acceptable(env, messages[i].channel)
    ensures forall i :: 0 <= i < |messages[1..]| ==> Acceptable(env, messages[1..][i].channel)
  {
    forall i | 0 <= i < |messages[1..]| ensures Acceptable(env, messages[1..][i].channel) {
      assert messages[1..][i] == messages[i + 1];
    }
  }

  lemma {:induction false} PublishesAccumulate(env: Env, s: Session, messages: seq<Message>)
    requires Valid(s) && s.state == Connected && s.advice.reconnect == AdviseRetry
    requires s.gate == Gate(Deferred, [])
    requires forall i :: 0 <= i < |messages| ==> Acceptable(env, messages[i].channel)
    ensures var s' := RunAll(env, s, PublishCalls(messages)).0;
      && Valid(s') && s'.state == Connected && s'.clientId == s.clientId
      && s'.outbox == s.outbox + PublishEnvelopes(messages, s.clientId)
    decreases |messages|
  {
    if messages != [] {
      var m := messages[0];
      var calls := PublishCalls(messages);
      assert calls[0] == CallPublish(m.channel, m.data);
      assert calls[1..] == PublishCalls(messages[1..]);
      PublishKeepsSession(env, s, m.channel, m.data);
      var s1 := Step(env, s, calls[0]).s;
      RunAllFirst(env, s, calls);
      AcceptableTail(env, messages);
      PublishesAccumulate(env, s1, messages[1..]);
      PublishEnvelopesCons(s.outbox, messages, s.clientId);
    }
  }

  /** Publish calls never send a publish envelope themselves: they only queue it for the timer. */
  lemma {:induction false} PublishCallsSendNoPublish(env: Env, s: Session, messages: seq<Message>)
    requires Valid(s) && s.state == Connected && s.advice.reconnect == AdviseRetry
    requires s.gate == Gate(Deferred, [])
    requires forall i :: 0 <= i < |messages| ==> Acceptable(env, messages[i].channel)
    ensures SendsNoPublish(RunAll(env, s, PublishCalls(messages)).1)
    decreases |messages|
  {
    if messages != [] {
      var m := messages[0];
      var calls := PublishCalls(messages);
      assert calls[0] == CallPublish(m.channel, m.data);
      assert calls[1..] == PublishCalls(messages[1..]);
      PublishWhileConnected(env, s, m.channel, m.data);
      var x := Step(env, s, calls[0]);
      RunAllCons(env, s, calls);
      AcceptableTail(env, messages);
      PublishCallsSendNoPublish(env, x.s, messages[1..]);
      PublishCallSendsNoPublish(env, s);
      SendsNoPublishAppend(x.out, RunAll(env, x.s, calls[1..]).1);
    }
  }

  /** What one publish call on a connected client emits sends no publish envelope. */
  lemma PublishCallSendsNoPublish(env: Env, s: Session)
    ensures SendsNoPublish([Arm(PublishTimer, env.maxDelay)] + (if s.connectionId.None? then ConnectRequestEffects(s) else []))
  {
  }

  lemma SendsNoPublishAppend(a: seq<Effect>, b: seq<Effect>)
    requires SendsNoPublish(a) && SendsNoPublish(b)
    ensures SendsNoPublish(a + b)
  {
    forall i | 0 <= i < |a + b|
      ensures !(a + b)[i].SendBatch? && !((a + b)[i].Send? && (a + b)[i].message.PublishRequest?)
    {
      if i < |a| {
        assert (a + b)[i] == a[i];
      } else {
        assert (a + b)[i] == b[i - |a|];
      }
    }
  }

  /**
   * Publishes made while connected pile up in the outbox in call order;
   * when the publish timer fires they all leave in one batch and the
   * outbox is empty.
   */
  lemma PublishesCoalesce(env: Env, s: Session, messages: seq<Message>)
    requires Valid(s) && s.state == Connected && s.advice.reconnect == AdviseRetry
    requires s.gate == Gate(Deferred, []) && messages != []
    requires forall i :: 0 <= i < |messages| ==> Acceptable(env, messages[i].channel)
    ensures var s' := RunAll(env, s, PublishCalls(messages)).0;
      && s'.outbox == s.outbox + PublishEnvelopes(messages, s.clientId)
      && Step(env, s', PublishTimerFired).out == [SendBatch(s.outbox + PublishEnvelopes(messages, s.clientId))]
      && Step(env, s', PublishTimerFired).s.outbox == []
    ensures SendsNoPublish(RunAll(env, s, PublishCalls(messages)).1)
  {
    PublishesAccumulate(env, s, messages);
    PublishCallsSendNoPublish(env, s, messages);
    var s' := RunAll(env, s, PublishCalls(messages)).0;
    assert |PublishEnvelopes(messages, s.clientId)| > 0;
    PublishTimerFlushes(env, s');
  }

  // ---------------------------------------------------------------- delivery

  lemma DeliverOne(env: Env, s: Session, m: Message)
    ensures DeliverMessages(env, s, [m]) == Invocations(ChannelTree.Glob(s.channels, env.matches, m.channel), m.data)
  {
    assert [m][1..] == [];
  }

  /** When only `p` matches `ch` and `p` holds `entry`, a message on `ch` reaches exactly what `entry` names. */
  lemma DeliverToSolePattern(env: Env, s: Session, p: Channel, ch: Channel, entry: Option<Callback>, d: Data)
    requires ChannelTree.Distinct(s.channels) && ChannelTree.Lookup(s.channels, p) == Some(entry)
    requires env.matches(p, ch)
    requires forall q :: q in ChannelTree.Keys(s.channels) && q != p ==> !env.matches(q, ch)
    ensures Step(env, s, CallDeliverMessages([Message(ch, d)])).out ==
      (if entry.Some? then [Invoke(entry.value, Some(d))] else [])
  {
    ChannelTree.GlobSingle(s.channels, env.matches, ch, p, entry);
    DeliverOne(env, s, Message(ch, d));
    assert [entry][1..] == [];
  }

  /** `p` is the only registered pattern matching `ch`. */
  predicate SoleMatch(env: Env, t: Listeners, p: Channel, ch: Channel) {
    env.matches(p, ch) && forall q :: q in ChannelTree.Keys(t) && q != p ==> !env.matches(q, ch)
  }

  /** A successful reply for `[p]` binds `p` to `entry`; `p` stays the sole match. */
  lemma ReplyBindsSole(env: Env, s: Session, h: SessionHandler, p: Channel, ch: Channel,
                       entry: Option<Callback>, resp: Response)
    requires ChannelTree.Distinct(s.channels) && SoleMatch(env, s.channels, p, ch)
    requires (h == SubscribeDone(entry) && entry.Some?) || (h == UnsubscribeDone && entry.None?)
    requires resp.successful && resp.clientId == s.clientId && resp.subscription == [p]
    ensures var s1 := Step(env, s, Replied(Verified(h), resp)).s;
      && ChannelTree.Distinct(s1.channels) && SoleMatch(env, s1.channels, p, ch)
      && ChannelTree.Lookup(s1.channels, p) == Some(entry)
      && s1 == s.(channels := s1.channels)
  {
    var s1 := Step(env, s, Replied(Verified(h), resp)).s;
    assert s1.channels == ChannelTree.SetAll(s.channels, [p], entry);
    assert p in resp.subscription;
  }

  /** On a connected client with nothing deferred, `connect` runs the caller's work first, before any connect request. */
  lemma ConnectedRunsTaskFirst(env: Env, s: Session, t: Task)
    requires s.state == Connected && s.advice.reconnect == AdviseRetry && s.gate.queue == []
    ensures var r := Connect(env, s, Some(t));
      var run := RunTask(env, s.(gate := Gate(Deferred, [])), t);
      && r.thrown == run.thrown && run.out <= r.out
      && (r.thrown.Some? ==> r == run)
  {
    var s1 := s.(gate := s.gate.(status := Succeeded));
    assert Drain(env, s1) == Done(s1);
    var d := ReleaseDeferred(env, s);
    assert d == Done(s.(gate := Gate(Deferred, [])));
    assert Connect(env, s, Some(t)) == ConnectWhileConnected(env, s, Some(t));
  }

  /**
   * `subscribe` on a connected client throws exactly when a name fails
   * validation, and then sends nothing; otherwise its first effect is one
   * `/meta/subscribe` carrying the clientId and the names, whose reply
   * handler will bind the given listener.
   */
  lemma SubscribeCallSends(env: Env, s: Session, chs: seq<Channel>, l: Option<Callback>)
    requires s.state == Connected && s.advice.reconnect == AdviseRetry && s.gate.queue == []
    ensures var x := Step(env, s, CallSubscribe(chs, l));
      && (x.thrown.None? <==> forall c :: c in chs ==> Acceptable(env, c))
      && (x.thrown.Some? ==> x.out == [] && x.s == s.(gate := Gate(Deferred, [])))
      && (x.thrown.None? ==>
            && |x.out| > 0
            && x.out[0] == Send(SubscribeRequest(s.clientId, chs), Some(Verified(SubscribeDone(l))))
            && x.s.gate == Gate(Deferred, []))
      && x.s.state == Connected && x.s.clientId == s.clientId && x.s.channels == s.channels
      && x.s.advice == s.advice
  {
    ConnectedRunsTaskFirst(env, s, SubscribeTask(chs, l));
  }

  /** The same for `unsubscribe`, whose reply handler will null the names. */
  lemma UnsubscribeCallSends(env: Env, s: Session, chs: seq<Channel>)
    requires s.state == Connected && s.advice.reconnect == AdviseRetry && s.gate.queue == []
    ensures var x := Step(env, s, CallUnsubscribe(chs));
      && (x.thrown.None? <==> forall c :: c in chs ==> Acceptable(env, c))
      && (x.thrown.Some? ==> x.out == [] && x.s == s.(gate := Gate(Deferred, [])))
      && (x.thrown.None? ==>
            && |x.out| > 0
            && x.out[0] == Send(UnsubscribeRequest(s.clientId, chs), Some(Verified(UnsubscribeDone)))
            && x.s.gate == Gate(Deferred, []))
      && x.s.state == Connected && x.s.clientId == s.clientId && x.s.channels == s.channels
      && x.s.advice == s.advice
  {
    ConnectedRunsTaskFirst(env, s, UnsubscribeTask(chs));
  }

  /**
   * The subscribe half of the round trip: `subscribe([p], l)` sends a
   * request whose successful reply makes `p`, still the only match for
   * `ch`, deliver to `l` exactly once, and leaves the client ready for the
   * next call.
   */
  lemma SubscribeThenDeliver(env: Env, s: Session, p: Channel, ch: Channel, l: Callback, d: Data, resp: Response)
    requires Valid(s) && s.state == Connected && s.advice.reconnect == AdviseRetry && s.gate.queue == []
    requires Acceptable(env, p) && SoleMatch(env, s.channels, p, ch)
    requires resp.successful && resp.clientId == s.clientId && resp.subscription == [p]
    ensures var sub := Step(env, s, CallSubscribe([p], Some(l)));
      && |sub.out| > 0 && sub.out[0].Send? && sub.out[0].reply.Some?
      && var s1 := Step(env, sub.s, Replied(sub.out[0].reply.value, resp)).s;
         && Step(env, s1, CallDeliverMessages([Message(ch, d)])).out == [Invoke(l, Some(d))]
         && s1.state == Connected && s1.advice == s.advice && s1.gate == Gate(Deferred, [])
         && s1.clientId == s.clientId && ChannelTree.Distinct(s1.channels) && SoleMatch(env, s1.channels, p, ch)
  {
    SubscribeCallSends(env, s, [p], Some(l));
    var sub := Step(env, s, CallSubscribe([p], Some(l)));
    assert sub.out[0].reply.value == Verified(SubscribeDone(Some(l)));
    ReplyBindsSole(env, sub.s, SubscribeDone(Some(l)), p, ch, Some(l), resp);
    var s1 := Step(env, sub.s, Replied(Verified(SubscribeDone(Some(l))), resp)).s;
    DeliverToSolePattern(env, s1, p, ch, Some(l), d);
  }

  /**
   * The unsubscribe half: `unsubscribe([p])` sends a request whose
   * successful reply makes a message on `ch` reach no one.
   */
  lemma UnsubscribeThenSilence(env: Env, s: Session, p: Channel, ch: Channel, d: Data, resp: Response)
    requires ChannelTree.Distinct(s.channels) && s.state == Connected && s.advice.reconnect == AdviseRetry
    requires s.gate.queue == [] && Acceptable(env, p) && SoleMatch(env, s.channels, p, ch)
    requires resp.successful && resp.clientId == s.clientId && resp.subscription == [p]
    ensures var unsub := Step(env, s, CallUnsubscribe([p]));
      && |unsub.out| > 0 && unsub.out[0].Send? && unsub.out[0].reply.Some?
      && var s2 := Step(env, unsub.s, Replied(unsub.out[0].reply.value, resp)).s;
         Step(env, s2, CallDeliverMessages([Message(ch, d)])).out == []
  {
    UnsubscribeCallSends(env, s, [p]);
    var unsub := Step(env, s, CallUnsubscribe([p]));
    assert unsub.out[0].reply.value == Verified(UnsubscribeDone);
    ReplyBindsSole(env, unsub.s, UnsubscribeDone, p, ch, None, resp);
    var s2 := Step(env, unsub.s, Replied(Verified(UnsubscribeDone), resp)).s;
    DeliverToSolePattern(env, s2, p, ch, None, d);
  }

  /**
   * The subscription round trip, from the calls: `subscribe([p], l)` sends
   * a request whose successful reply makes a message on a channel only `p`
   * matches reach `l` exactly once; `unsubscribe([p])` then sends a request
   * whose successful reply makes the same message reach no one.
   */
  lemma SubscribeDeliverUnsubscribe(env: Env, s: Session, p: Channel, ch: Channel, l: Callback, d: Data, resp: Response)
    requires Valid(s) && s.state == Connected && s.advice.reconnect == AdviseRetry && s.gate.queue == []
    requires Acceptable(env, p) && SoleMatch(env, s.channels, p, ch)
    requires resp.successful && resp.clientId == s.clientId && resp.subscription == [p]
    ensures var sub := Step(env, s, CallSubscribe([p], Some(l)));
      && |sub.out| > 0 && sub.out[0].Send? && sub.out[0].reply.Some?
      && var s1 := Step(env, sub.s, Replied(sub.out[0].reply.value, resp)).s;
         && Step(env, s1, CallDeliverMessages([Message(ch, d)])).out == [Invoke(l, Some(d))]
         && var unsub := Step(env, s1, CallUnsubscribe([p]));
            && |unsub.out| > 0 && unsub.out[0].Send? && unsub.out[0].reply.Some?
            && var s2 := Step(env, unsub.s, Replied(unsub.out[0].reply.value, resp)).s;
               Step(env, s2, CallDeliverMessages([Message(ch, d)])).out == []
  {
    SubscribeThenDeliver(env, s, p, ch, l, d, resp);
    var sub := Step(env, s, CallSubscribe([p], Some(l)));
    var s1 := Step(env, sub.s, Replied(sub.out[0].reply.value, resp)).s;
    UnsubscribeThenSilence(env, s1, p, ch, d, resp);
  }
}

=== FILE: deferrable.dfy ===
/**
 * The callback gate the client mixes in: a status tag plus the callbacks
 * waiting for the status "succeeded". Running the waiting callbacks needs
 * the client, so the draining itself lives with the client.
 */
module Deferrable {

  /** The deferred status; a gate that was never set behaves as `Deferred`. */
  datatype Status = Deferred | Succeeded

  datatype Gate<T> = Gate(status: Status, queue: seq<T>)

  function Initial<T>(): Gate<T> { Gate(Deferred, []) }

  /** Queues a callback behind the "succeeded" status. */
  function Defer<T>(g: Gate<T>, t: T): Gate<T> {
    g.(queue := g.queue + [t])
  }
}

=== FILE: handshake_finding.dfy ===
/**
 * The handshake completion callback does not look at the client's state,
 * so a reply to a handshake the client has already given up on still acts.
 * The liveness timer is armed before the first handshake; when it fires
 * first, a second handshake goes out while the first is outstanding. If the
 * first reply then succeeds and the application disconnects, the second
 * reply takes the client out of the terminal `Disconnected` state.
 */
module HandshakeFinding {
  import opened Wrappers
  import opened Bayeux
  import opened Deferrable
  import opened Client
  import ClientProperties

  /** A concrete environment: every name is valid and subscribable, patterns match only themselves. */
  function SampleEnv(): Env {
    Env(ch => true, ch => true, (p, ch) => p == ch, "1.0", ["long-polling"], "long-polling",
        types => "long-polling", 60, 0, 1, "/bayeux")
  }

  /** The callback the second handshake carries: re-subscribe to the (empty) registry, then connect. */
  function Resubscribe(): HandshakeCallback {
    ThenConnect(Some(SubscribeTask([], None)))
  }

  /** The first `connect` on a new client. */
  function FirstConnect(): Exec {
    var env := SampleEnv();
    Step(env, Init(env, "", None), CallConnect(None))
  }

  /** The liveness timer firing while the first handshake is outstanding. */
  function TimerFires(): Exec {
    Step(SampleEnv(), FirstConnect().s, ReconnectTimerFired)
  }

  /** The first handshake's successful reply. */
  function FirstReply(): Exec {
    Step(SampleEnv(), TimerFires().s, Replied(HandshakeReply(ThenConnect(None)), Response(true, Id("a"), [], [])))
  }

  /** The client connected by the first handshake's reply, with the second handshake still outstanding. */
  function ConnectedWithLateHandshake(): Session {
    FirstReply().s
  }

  /** The client just after it has disconnected with the second handshake still outstanding. */
  function DisconnectedWithLateHandshake(): (Session, seq<Effect>) {
    var e4 := Step(SampleEnv(), FirstReply().s, CallDisconnect);
    (e4.s, FirstConnect().out + TimerFires().out + FirstReply().out + e4.out)
  }

  lemma FirstConnectSendsHandshake()
    ensures FirstConnect().out
         == [Arm(ReconnectTimer, 60), Send(HandshakeEnvelope(SampleEnv()), Some(HandshakeReply(ThenConnect(None))))]
    ensures var s := FirstConnect().s;
      && s.state == Connecting && ReconnectTimer in s.timers && s.channels == [] && Valid(s)
      && s.advice == Advice(AdviseRetry, 1) && s.gate == Gate(Deferred, []) && s.nextId == 0
  {
  }

  lemma TimerSendsSecondHandshake()
    ensures TimerFires().out
         == [Arm(ReconnectTimer, 60), Send(HandshakeEnvelope(SampleEnv()), Some(HandshakeReply(Resubscribe())))]
    ensures var s := TimerFires().s;
      && s.state == Connecting && Valid(s) && s.advice == Advice(AdviseRetry, 1)
      && s.gate == Gate(Deferred, []) && s.nextId == 0
  {
    FirstConnectSendsHandshake();
    assert ChannelTree.Keys(FirstConnect().s.channels) == [];
  }

  /** A successful reply to the handshake a fresh `connect` started opens the first connection. */
  lemma ReplyOpensConnection(env: Env, s: Session, resp: Response)
    requires s.state == Connecting && Valid(s) && s.advice.reconnect == AdviseRetry && s.gate.queue == []
    requires resp.successful
    ensures var r := HandshakeReplied(env, s, ThenConnect(None), resp);
      && r.s.state == Connected && r.s.clientId == resp.clientId
      && r.s.connectionId == Some(s.nextId) && Valid(r.s) && r.s.advice == s.advice
  {
    var r := HandshakeReplied(env, s, ThenConnect(None), resp);
    assert r == HandshakeResponseAsWritten(env, s, ThenConnect(None), resp);
    var s1 := s.(state := Connected, clientId := resp.clientId, connectionType := env.select(resp.supportedConnectionTypes));
    assert r == Connect(env, s1, None) == ConnectWhileConnected(env, s1, None);
    assert s1.gate.queue + Work(None) == [];
    assert QueuePasses(env, []);
  }

  lemma FirstReplyConnects()
    ensures var s := FirstReply().s;
      && s.state == Connected && s.clientId == Id("a") && s.connectionId == Some(0) && Valid(s)
      && s.advice == Advice(AdviseRetry, 1)
  {
    TimerSendsSecondHandshake();
    var env := SampleEnv();
    var s2 := TimerFires().s;
    var resp := Response(true, Id("a"), [], []);
    ClientProperties.StepRunsHandshakeReply(env, s2, ThenConnect(None), resp);
    ReplyOpensConnection(env, s2, resp);
  }

  /**
   * The trace is reachable: the first `connect` sends a handshake, the
   * liveness timer sends a second one, the first reply connects the client
   * and `disconnect` ends the session, leaving the second handshake's reply
   * outstanding.
   */
  lemma LateHandshakeIsOutstanding()
    ensures var env := SampleEnv();
      var s0 := Init(env, "", None);
      var e1 := Step(env, s0, CallConnect(None));
      var e2 := Step(env, e1.s, ReconnectTimerFired);
      var e3 := Step(env, e2.s, Replied(HandshakeReply(ThenConnect(None)), Response(true, Id("a"), [], [])));
      var e4 := Step(env, e3.s, CallDisconnect);
      && e1.out == [Arm(ReconnectTimer, 60), Send(HandshakeEnvelope(env), Some(HandshakeReply(ThenConnect(None))))]
      && e2.out == [Arm(ReconnectTimer, 60), Send(HandshakeEnvelope(env), Some(HandshakeReply(Resubscribe())))]
      && e3.s.state == Connected
      && e4.s.state == Disconnected
      && e4.out[0] == Send(DisconnectRequest(Id("a")), None)
      && e4.s == DisconnectedWithLateHandshake().0
      && e3.s == ConnectedWithLateHandshake()
      && e3.s.connectionId == Some(0) && Valid(e3.s)
  {
    FirstConnectSendsHandshake();
    TimerSendsSecondHandshake();
    FirstReplyConnects();
  }

  /**
   * As written, the late reply revives the disconnected client: a
   * successful one makes it `Connected` and sends a subscribe request; a
   * failed one makes it `Unconnected` and schedules another handshake.
   */
  lemma DisconnectedRevivedAsWritten()
    ensures var env := SampleEnv();
      var s := DisconnectedWithLateHandshake().0;
      && s.state == Disconnected
      && HandshakeResponseAsWritten(env, s, Resubscribe(), Response(true, Id("b"), [], [])).s.state == Connected
      && HandshakeResponseAsWritten(env, s, Resubscribe(), Response(false, Undefined, [], [])).s.state == Unconnected
      && HandshakeResponseAsWritten(env, s, Resubscribe(), Response(false, Undefined, [], [])).out
         == [Schedule(RetryHandshake(Resubscribe()), 1)]
  {
    FirstReplyConnects();
    var s3 := FirstReply().s;
    var s := DisconnectedWithLateHandshake().0;
    assert s == Disconnect(s3).s == s3.(state := Disconnected, channels := [], timers := s3.timers - {ReconnectTimer});
    Revived(SampleEnv(), s, Resubscribe(), Id("b"));
  }

  /** The handler as written ignores the state: any success connects, any failure schedules a retry. */
  lemma Revived(env: Env, s: Session, cb: HandshakeCallback, id: IdField)
    ensures HandshakeResponseAsWritten(env, s, cb, Response(true, id, [], [])).s.state == Connected
    ensures var failed := HandshakeResponseAsWritten(env, s, cb, Response(false, Undefined, [], []));
      failed.s.state == Unconnected && failed.out == [Schedule(RetryHandshake(cb), s.advice.interval)]
  {
  }

  /** With the state guard, the same late replies leave the disconnected client untouched. */
  lemma DisconnectedKeptWhenGuarded(resp: Response)
    ensures var env := SampleEnv();
      var s := DisconnectedWithLateHandshake().0;
      HandshakeReplied(env, s, Resubscribe(), resp) == Done(s)
  {
    LateHandshakeIsOutstanding();
  }

  /**
   * As written, the same late reply also breaks a live session. A failure
   * drops the connected client to `Unconnected` while its connect request
   * is still outstanding, which no `connect` path can reach. A success
   * replaces the clientId the outstanding connect request carries.
   */
  lemma ConnectedBrokenAsWritten()
    ensures var env := SampleEnv();
      var s := ConnectedWithLateHandshake();
      && Valid(s) && s.state == Connected && s.clientId == Id("a")
      && HandshakeResponseAsWritten(env, s, Resubscribe(), Response(true, Id("b"), [], [])).s.clientId == Id("b")
      && var failed := HandshakeResponseAsWritten(env, s, Resubscribe(), Response(false, Undefined, [], []));
         failed.s.state == Unconnected && failed.s.connectionId == Some(0) && !Valid(failed.s)
  {
    LateHandshakeIsOutstanding();
  }

  /** With the guard, the connected client keeps its session and stays valid whatever the late reply says. */
  lemma ConnectedKeptWhenGuarded(resp: Response)
    ensures var env := SampleEnv();
      var s := ConnectedWithLateHandshake();
      var r := HandshakeReplied(env, s, Resubscribe(), resp);
      && r.s.state == Connected && r.s.clientId == Id("a") && Valid(r.s)
  {
    LateHandshakeIsOutstanding();
  }
}

=== FILE: wrappers.dfy ===
/**
 * Optional values and pass/fail outcomes shared by the rest of the model.
 */
module Wrappers {

  /** A value that may be missing. */
  datatype Option<+T> = None | Some(value: T)

  /** The result of a check that either passes or fails with a reason. */
  datatype Outcome<+E> = Pass | Fail(error: E)
}
